=== FILE: README.md ===
# acme-ai legal search, modelled in Dafny

acme-ai is a legal document search tool: a Python (FastAPI) backend that
stores legal documents, ranks them against a query and builds a mock "AI"
answer, and a Next.js frontend that lists, filters, shows and exports them
as PDF. This project models the deterministic logic of both halves as pure
Dafny functions and proves what that logic promises.

Modules (one file each):

- `Wrappers`: `Option` and `Result`.
- `Text`: ASCII case mapping, substring search, Python and JavaScript whitespace, trimming, single-character replacement and joining.
- `Seqs`: prefixes (`slice(0, n)`) and the order-preserving filter with its embedding lemmas.
- `Documents`: the record shapes the frontend receives and JavaScript truthiness of optional strings.
- `Library`: the library page's client-side filter and its empty-state message.
- `Card`: the document card's badge, label, title fallback, keyword row and detail link.
- `Preprocess`: the backend's `preprocess_text` normaliser.
- `Store`: the backend's document store and `get_document`.
- `Concepts`: `extract_legal_concepts`, with Python's `str.title()` on ASCII.
- `Backend`: `generate_search_results`, covering query validation, ranking from given scores, the fallback, the template choice, key points and the response.
- `Pdf`: the page/cursor discipline shared by both PDF exports (`doc.text`, `yPos += …`, the bottom-margin break check).
- `DetailExport`: the document detail page's PDF export and its AI-summary adapter.
- `ReportExport`: the search results' PDF report.
- `SearchPage`: the search page as a state machine (submit, settle, grid) and the response adapter.

The TF-IDF similarity scores are an input to the ranking. Text wrapping and
date formatting are function parameters. The page height is an integer
parameter: the fit properties hold from 27 units (one line between the
margins) and, for document blocks, from 40 units.

Some behaviours of the source that the model keeps as written:

- Page breaks are checked only inside the content, concept and document loops. The title, header, metadata, summary and the concepts heading are written without a check, so a long summary is not paginated.
- The detail export always writes the "Full Document Content:" heading, even when no optional field is present.
- A failed documents fetch on the search page leaves the list as it was, with no error state.
- The "no section for an empty collection" rule is inside the report exporter itself: `legalConcepts.length > 0` and `documents.length > 0`.

## Model

| member | source | states |
|---|---|---|
| Library.FilterKeepsOrder | frontend/src/pages/library.tsx:44-54 | the filtered list is drawn from the input in its original order, and position i survives exactly when document i matches both the text and the category criterion |
| Library.FilterAllIsIdentity | frontend/src/pages/library.tsx:44-54 | an empty term with category 'all' returns the input unchanged |
| Library.SearchCriterion | frontend/src/pages/library.tsx:45-49 | the text criterion holds iff the term is empty or its lowercase form occurs in the lowercased title, case number or summary; a missing field never matches |
| Library.KeepMonotonic | frontend/src/pages/library.tsx:45-53 | a document kept for a term is kept for every substring of that term, under the same category |
| Library.FilterMonotonic | frontend/src/pages/library.tsx:44-54 | the result for a longer term is contained in, and no longer than, the result for any of its substrings |
| Library.EmptyStateExplained | frontend/src/pages/library.tsx:105-113 | with nothing kept, "Try adjusting your filters" is shown iff the term is non-empty or the category is not 'all'; the other message appears only for an empty library |
| Library.UppercaseTermFindsTitle | frontend/src/pages/library.tsx:47 | "SMITH" finds the title "Smith v. Jones": matching ignores case |
| Library.CategoryIsCaseSensitive | frontend/src/pages/library.tsx:51 | category "Contract" does not match the filter "contract" |
| Library.WhitespaceTermIsNotTrimmed | frontend/src/pages/library.tsx:46-49 | a one-space term is not blank: it rejects "Smith" and keeps "Smith v. Jones" |
| Preprocess.RemoveSpecial | backend/app/main.py:41 | the result is the input's a-z, 0-9 and whitespace characters, in their order, with every other character dropped |
| Preprocess.CollapseSpaces | backend/app/main.py:42 | the result never holds two adjacent spaces and its only whitespace is ' '; it holds only word characters and spaces when the input held only word characters and whitespace; it starts with the input's first character, or with ' ' when that is whitespace; it is empty iff the input is. Where each whitespace run goes is stated by Preprocess.CollapseRunBetween |
| Preprocess.CollapseKeepsWords | backend/app/main.py:42 | collapsing keeps every non-whitespace character of the input, in order, and adds none |
| Preprocess.CollapseRunBetween | backend/app/main.py:42 | a whitespace run between two words (or at an end next to a word) becomes exactly one space, and the text on either side collapses on its own |
| Preprocess.CollapseAppend | backend/app/main.py:42 | collapsing works piece by piece wherever no whitespace run straddles the cut |
| Preprocess.CollapseExample | backend/app/main.py:42 | `"a \t b"` collapses to `"a b"` |
| Preprocess.OnlyKeptMeans | backend/app/main.py:41 | the text the special-character removal leaves is exactly text whose every character is a-z, 0-9 or whitespace |
| Preprocess.PreprocessText | backend/app/main.py:38-43 | the output holds only a-z, 0-9 and single spaces, with no space at either end |
| Preprocess.PreprocessKeepsWords | backend/app/main.py:38-43 | the output's non-space characters are exactly the a-z and 0-9 characters of the lower-cased input, in order |
| Preprocess.PreprocessFixes | backend/app/main.py:38-43 | any string already of that shape is returned unchanged |
| Preprocess.PreprocessIdempotent | backend/app/main.py:38-43 | normalising twice equals normalising once |
| Preprocess.PreprocessWord | backend/app/main.py:40-41 | a word of ASCII letters and digits comes out lowercased, not stripped, because lowering happens before filtering |
| Store.Lookup | backend/app/main.py:123 | a document is found iff some stored id equals the argument, and it is the first such |
| Store.GetDocument | backend/app/main.py:88-95 | success iff some stored id matches, returning the first match; otherwise 404 "Document not found" |
| Store.LookupUniqueId | backend/app/main.py:122-125 | with distinct ids, looking up document i's id yields document i |
| Backend.CheckQuery | backend/app/main.py:109-110 | a query is rejected with 400 "Query cannot be empty" iff every character is Python whitespace |
| Backend.ResolvedDoc | backend/app/main.py:122-125 | each scored entry carries the first stored document with the same id |
| Backend.SortByScore | backend/app/main.py:128 | sorting is a permutation of the scored entries |
| Backend.SortByScoreSorted | backend/app/main.py:128 | the sort yields non-increasing scores, ties kept in store order |
| Backend.RankRelevantSound | backend/app/main.py:128-131 | every ranked entry is a genuine (document, score) pair with score above 0.1 |
| Backend.RankRelevantComplete | backend/app/main.py:130-131 | every stored position whose score is above 0.1 appears among the ranked entries |
| Backend.RankRelevantSorted | backend/app/main.py:127-131 | the ranked entries are in non-increasing score order |
| Backend.FallbackSelection | backend/app/main.py:133-136 | when no score passes 0.1 the selection is the first two stored documents with scores 0.1 and 0.05 |
| Backend.SelectRelevant | backend/app/main.py:121-136 | the selection is empty only for an empty store, and every selected document is a stored one |
| Backend.RankedSelection | backend/app/main.py:121-131 | when some score is above 0.1, entry k of the selection is the resolved document of some corpus position with that position's own score, above 0.1; every position scoring above 0.1 is listed; positions come by descending score, ties in corpus order (the stable reverse sort) |
| Backend.MockSummary | backend/app/main.py:204-209 | the answer embeds the query, and the general template names the first relevant title or 'case law' |
| Backend.MockSummaryPriority | backend/app/main.py:160-218 | contract words win, then privacy words, then employment words; the general template iff none occurs in the lowercased query |
| Backend.MockSummaryIgnoresCase | backend/app/main.py:162 | queries equal up to ASCII case get the same template |
| Backend.DataBreachIsContract | backend/app/main.py:165-178 | "Data breach" mentions both lists and gets the contract template |
| Backend.KeyPoints | backend/app/main.py:223-234 | each of case_law, contract and statute has its own fixed text; any other or missing category gets the generic one |
| Backend.ListDocuments | backend/app/main.py:146-154 | at most 3 entries, as many as the shorter of the two lists allows, entry k pairing document k with score k and its key points |
| Backend.GenerateSearchResults | backend/app/main.py:99-157 | it succeeds iff the query is not blank and the store is not empty; a blank query fails with 400, an empty store with 500; otherwise it returns the template for the selection, 1 to 3 listed documents and at most 5 valid concepts, all of them when fewer than 5 |
| Concepts.TitleCaseSpec | backend/app/main.py:264 | each letter is uppercased iff it does not follow a letter, other letters are lowercased, and other characters are kept |
| Concepts.TitleCaseExample | backend/app/main.py:264 | "at-will" becomes "At-Will" |
| Concepts.QueryConcepts | backend/app/main.py:256-258 | exactly the names of the rules with a keyword occurring in the lowercased query |
| Concepts.AddDocumentKeywords | backend/app/main.py:262-264 | adds exactly the title-cased first two keywords of one document |
| Concepts.AddKeywordConcepts | backend/app/main.py:261-264 | adds exactly the title-cased first two keywords of the first two documents |
| Concepts.PickAtMost | backend/app/main.py:266 | at most n distinct members of the set, and all of them when fewer than n are returned |
| Concepts.ExtractConcepts | backend/app/main.py:237-266 | at most 5 distinct concepts, each a matched rule name or a title-cased early keyword; if fewer than 5 are returned, every such concept is among them |
| Card.BadgeColor | frontend/src/components/search/DocumentCard.tsx:15-26 | gray exactly when the category is missing or is neither one of the five known ones nor the name of an inherited `Object.prototype` member; a known category gets its colour; an inherited member name gets no colour string (None) |
| Card.InheritedKeyIsNotGray | frontend/src/components/search/DocumentCard.tsx:15-26 | the category "constructor" does not get the gray badge, while an unknown name such as "unknown_kind" does |
| Card.CategoryLabel | frontend/src/components/search/DocumentCard.tsx:40 | same length as the category (or "UNKNOWN"), no underscore and no lowercase letter, each '_' a space and every other character equal up to case |
| Card.KnownCategoryLabels | frontend/src/components/search/DocumentCard.tsx:40 | "case_law" shows as "CASE LAW", "contract" as "CONTRACT", a missing category as "UNKNOWN" |
| Card.MissingCategoryIsGrayUnknown | frontend/src/components/search/DocumentCard.tsx:23-40 | a missing category shows "UNKNOWN" on the gray badge |
| Card.TitleText | frontend/src/components/search/DocumentCard.tsx:50 | a present title is shown as is (even empty); a missing one is "Untitled" |
| Card.KeywordRow | frontend/src/components/search/DocumentCard.tsx:67-69 | the row exists iff keywords are present and non-empty, and shows a prefix of 1 to 3 of them: the first 3 when there are that many, all of them otherwise |
| Card.DetailHrefRoundTrip | frontend/src/components/search/DocumentCard.tsx:81 | the id is recovered from the link exactly |
| Card.DetailHrefInjective | frontend/src/components/search/DocumentCard.tsx:81 | distinct ids give distinct links |
| Card.Render | frontend/src/components/search/DocumentCard.tsx:39-81 | case number and summary are shown iff non-empty; the badge, title and keyword row are those the card's helpers produce for the document; the link leads back to the document's id |
| Pdf.FlowLines | frontend/src/pages/document-detail.tsx:184-191 | one placed item per input line, holding exactly that line, in order |
| Pdf.FlowBreaksOnlyWhenNeeded | frontend/src/pages/document-detail.tsx:185-189 | before each line a new page starts at y = 10 exactly when y + 7 would pass the bottom margin; otherwise the line goes at the cursor |
| Pdf.FlowFits | frontend/src/pages/document-detail.tsx:184-191 | on a page at least 27 high every line ends at or above the bottom margin |
| Pdf.FlowEnd | frontend/src/pages/document-detail.tsx:184-191 | the cursor ends just below the last line, on the starting page plus the page changes |
| Pdf.FlowStaysOnPage | frontend/src/pages/document-detail.tsx:184-191 | the loop never goes back a page, and when it stays on one page the cursor moves down 7 per line and ends above the bottom margin |
| Pdf.WriteCounts | frontend/src/components/search/SearchResults.tsx:75-78 | text written at the cursor or at the top of a just-added page keeps the page count at 1 + page changes |
| Pdf.FlowedCounts | frontend/src/components/search/SearchResults.tsx:62-69 | the guarded line loop keeps that count |
| Pdf.CountedExtension | frontend/src/components/search/SearchResults.tsx:62-94 | between two counted states the page advances by the page changes in the text added |
| DetailExport.HeaderParts | frontend/src/pages/document-detail.tsx:135-138 | the card's label of the category first, then the first min(3, n) keywords uppercased, in order |
| DetailExport.HeaderStartsWithLabel | frontend/src/pages/document-detail.tsx:135-139 | the header line begins with the category label and is exactly it when there are no keywords |
| DetailExport.ShownFieldsSpec | frontend/src/pages/document-detail.tsx:144-163 | a metadata field is printed iff present and non-empty, each once, in the order case number, court, date, jurisdiction, parties |
| DetailExport.WriteFields | frontend/src/pages/document-detail.tsx:144-163 | the printed fields are stacked 7 apart from the cursor, which ends 7 per printed field lower |
| DetailExport.WriteSummary | frontend/src/pages/document-detail.tsx:167-175 | the summary section lands on the current page with no break check, and the cursor moves down by 7 + 7 per wrapped line + 5 when a summary is present, by 0 otherwise |
| DetailExport.PreambleSpec | frontend/src/pages/document-detail.tsx:128-180 | title at 10, header at 20, fields from 30, summary section 5 below them, content heading after; all on page 1 |
| DetailExport.LayoutSpec | frontend/src/pages/document-detail.tsx:177-191 | each content line once, in order, after the preamble; fitting above the margin from height 27; last page = 1 + page changes, all of them in the content |
| DetailExport.LongContentBreaks | frontend/src/pages/document-detail.tsx:183-191 | content needing more than a page's height between the margins ends on page 2 or later |
| DetailExport.BareDocument | frontend/src/pages/document-detail.tsx:128-191 | with no optional field the export is title, category label, content heading and the content lines only |
| DetailExport.Filename | frontend/src/pages/document-detail.tsx:193 | spaces become '_', nothing else changes, ".pdf" is appended; a title without '_' is recovered |
| DetailExport.FilenameCollision | frontend/src/pages/document-detail.tsx:193 | "Smith v Jones" and "Smith_v_Jones" save under the same name |
| DetailExport.Export | frontend/src/pages/document-detail.tsx:118-194 | no file without a loaded document; otherwise the saved file is the document's layout: the preamble items, then wrapped content line k as item k after them, under the title's file name, with the layout's page count (1 + page changes) |
| DetailExport.AdaptSummary | frontend/src/pages/document-detail.tsx:106-109 | the summary is the reply's (empty when missing) and the principles are the reply's concepts (empty when missing) |
| ReportExport.Bulleted | frontend/src/components/search/SearchResults.tsx:67 | each concept is the bullet followed by the concept, in order |
| ReportExport.Intro | frontend/src/components/search/SearchResults.tsx:40-54 | title at 10, `Your Query: "…"` (empty for a missing query) at 20, the wrapped summary (or empty string) at 30, all on page 1 |
| ReportExport.ConceptsSection | frontend/src/components/search/SearchResults.tsx:56-71 | no section without concepts; otherwise the heading at the cursor without a break check, then the line loop over the bulleted concepts |
| ReportExport.ConceptLines | frontend/src/components/search/SearchResults.tsx:62-69 | concept k is printed once as bullet + concept, in order, above the margin from height 27 |
| ReportExport.DocumentBlock | frontend/src/components/search/SearchResults.tsx:81-93 | a new page iff 20 units do not fit; title, category or 'N/A', date or 'N/A' 7 apart on one page; cursor 26 lower; block fits from height 40 |
| ReportExport.WriteBlocks | frontend/src/components/search/SearchResults.tsx:81-94 | three placed items per document, appended after what was there |
| ReportExport.WriteBlocksSpec | frontend/src/components/search/SearchResults.tsx:81-94 | document k owns the k-th triple, which shows its lines on one page |
| ReportExport.DocumentsSection | frontend/src/components/search/SearchResults.tsx:73-95 | no section without documents; otherwise the heading at y = 10 of a new page, then one block per document |
| ReportExport.Layout | frontend/src/components/search/SearchResults.tsx:30-97 | the report starts with the intro, and its last page is 1 + the page changes in it |
| ReportExport.PageCount | frontend/src/components/search/SearchResults.tsx:57-95 | pages come only from the concept loop's breaks, the forced documents page and the block loop's breaks |
| ReportExport.Export | frontend/src/components/search/SearchResults.tsx:30-98 | a file exactly when there are results; the saved file is the report's layout (intro first, then the concepts and documents sections) with the layout's page count (1 + page changes), always named "ai_research_summary.pdf" |
| SearchPage.EditQuery | frontend/src/pages/search.tsx:122 | typing changes the query and nothing else |
| SearchPage.DocumentsLoaded | frontend/src/pages/search.tsx:39-53 | loading ends; the list is replaced on success and kept on failure; nothing else changes |
| SearchPage.Submit | frontend/src/pages/search.tsx:55-61 | a blank query (JavaScript trim) changes nothing and sends nothing; otherwise the request carries the query verbatim and the documents loaded at that moment, searching is set, error and results are cleared and nothing else changes |
| SearchPage.Adapt | frontend/src/pages/search.tsx:81-87 | the query is stored verbatim; documents are relevant_documents whenever present, else the first 3 loaded; concepts default to empty |
| SearchPage.EmptyRelevantIsKept | frontend/src/pages/search.tsx:84 | an empty relevant_documents list is kept, not replaced by loaded documents |
| SearchPage.Complete | frontend/src/pages/search.tsx:75-93 | searching ends either way; a reply sets the results built from the request's query and the documents captured when it was submitted; a failure sets the fixed error message and leaves results alone; query, documents and loading flag are unchanged |
| SearchPage.LateLoadIgnored | frontend/src/pages/search.tsx:39-87 | when the documents load between submit and reply, a reply without documents falls back to the first 3 documents held at submit, while the page's list shows the newly loaded ones |
| SearchPage.InitialConsistent | frontend/src/pages/search.tsx:24-29 | the first render is consistent |
| SearchPage.StepsKeepConsistent | frontend/src/pages/search.tsx:55-93 | no event lets results or an error show during a search, or both show together |
| SearchPage.SearchRoundTrip | frontend/src/pages/search.tsx:55-93 | a submitted search ends with results for the submitted query iff it got a reply, and with the error iff it failed, with the document list unchanged |
| SearchPage.AvailableGrid | frontend/src/pages/search.tsx:168-196 | the grid is hidden iff results exist or a search runs; otherwise it shows 6 skeletons iff documents are loading, the empty notice iff loading ended with no documents, and cards iff loading ended with some; the cards are the first 6 documents, or all of them when fewer |
| SearchPage.SearchingHidesEverything | frontend/src/pages/search.tsx:59-168 | during a search neither the grid nor results are shown |
| SearchPage.ReportInput | frontend/src/pages/search.tsx:161-163 | for a stored search result no null guard of the report fires: the query line quotes the query itself, and the concepts and documents sections are written exactly when the result has concepts or documents |
| SearchPage.ReportOfSearch | frontend/src/components/search/SearchResults.tsx:47 | the report's second line repeats the submitted query, and it has a documents section iff the search returned documents |

## Left out

- TF-IDF vectorisation and cosine similarity (`backend/app/main.py:33-61`, `115-118`) are a foreign numeric library on floating point; the scores are an input sequence of reals. The thresholds 0.1 and 0.05 are the exact binary64 values of those literals.
- The `int(score * 100)` percentage conversion (`backend/app/main.py:150`) truncates a float; the listed score is kept as the real score.
- Backend.MockSummary: the prose of the four answer templates is not reproduced. The model records which template is chosen and what it embeds: the query, and the source title for the general template.
- Concepts.ExtractConcepts: which five concepts survive depends on Python's set iteration order. The contract states only membership, distinctness, the bound of 5, and completeness when fewer than 5 are returned.
- Card.BadgeColor: for a category naming an inherited `Object.prototype` member (`constructor`, `toString`, ...), the source's class string holds that member's string conversion (for a function, its source text). The model returns None there and only promises that the badge is not gray.
- Preprocess.PreprocessText: its own contract states the output's shape. What the output keeps is stated by Preprocess.PreprocessKeepsWords, and where the spaces fall by Preprocess.CollapseRunBetween for the collapsing step; no single lemma restates the whole pipeline's word boundaries.
- Text: case mapping, `str.title()` and substring search are modelled on ASCII only. Unicode case rules are not modelled.
- `splitTextToSize` (font-metric word wrap), font sizes and the real A4 page size are jsPDF internals. Wrapping is a function parameter and the page height an integer parameter.
- Date and time formatting (`toLocaleDateString`, `toLocaleTimeString`, `datetime.utcnow()`, `new Date().toISOString()`) depends on locale and clock. The detail export takes a formatter parameter and the search page takes the timestamp as a parameter.
- Network fetches, the one-second `Promise.all` delay, React state hooks and effects, and router navigation are I/O. Requests appear as the `Submit` result and as `Complete`/`DocumentsLoaded` inputs.
- The detail page's document fetch and the `generateSummary` request body are network plumbing. Only the reply adaptation is modelled.
- Numeric document ids are modelled as strings; a number is rendered by its string form in every template that prints it.
- The library page's skeleton grid while loading, and the loading spinner inside the results panel, are markup.
- `backend/app/mock_data.py` is fixture data, and `backend/app/models.py` only gives the record shapes used here.
- CORS setup, the uvicorn launch, the root and health endpoints, and the pure UI files (layout chrome, skeletons, 404 page, page transitions) have no logic to model.

=== FILE: backend.dfy ===
/**
 * The `/generate` endpoint with the similarity scores taken as given:
 * query validation, ranking above the relevance threshold with a fallback,
 * the summary template choice, per-document key points and the response.
 */
module Backend {
  import opened Wrappers
  import opened Text
  import opened Seqs
  import opened Store
  import Concepts

  const EmptyQuery: HttpError := HttpError(400, "Query cannot be empty")
  const NotInitialized: HttpError := HttpError(500, "TF-IDF not initialized. No documents available.")

  /** The binary64 value of the literal `0.1`, used as the relevance threshold. */
  const Threshold: real := 0.1000000000000000055511151231257827021181583404541015625
  /** The binary64 value of the literal `0.05`. */
  const HalfThreshold: real := 0.05000000000000000277555756156289135105907917022705078125
  /** Scores attached to the two fallback documents. */
  const FallbackScores: seq<real> := [Threshold, HalfThreshold]

  const MaxListed: nat := 3
  const FallbackCount: nat := 2

  // ---------------------------------------------------------------- validation

  /** The query check: an empty or whitespace-only query is a 400. */
  function CheckQuery(query: string): (r: Option<HttpError>)
    ensures r.Some? <==> forall i :: 0 <= i < |query| ==> IsPySpace(query[i])
    ensures r.Some? ==> r.value == EmptyQuery
  {
    TrimEmptyIff(query, IsPySpace);
    if query == "" || Trim(query, IsPySpace) == "" then Some(EmptyQuery) else None
  }

  // ------------------------------------------------------------------- ranking

  /** A document with its similarity score and its position in the corpus. */
  datatype Scored = Scored(doc: StoredDocument, score: real, rank: nat)

  /** Sorted by descending score; Python's sort is stable, so ties keep corpus order. */
  predicate Precedes(a: Scored, b: Scored) {
    a.score > b.score || (a.score == b.score && a.rank < b.rank)
  }

  ghost predicate SortedDesc(xs: seq<Scored>) {
    forall k, l :: 0 <= k < l < |xs| ==> Precedes(xs[k], xs[l])
  }

  ghost predicate DistinctRanks(xs: seq<Scored>) {
    forall k, l :: 0 <= k < l < |xs| ==> xs[k].rank != xs[l].rank
  }

  /** The document the corpus position `i` resolves to: the first one with that position's id. */
  function ResolvedDoc(db: seq<StoredDocument>, i: nat): (d: StoredDocument)
    requires i < |db|
    ensures exists j :: FirstWithId(db, db[i].id, j) && db[j] == d
  {
    Lookup(db, db[i].id).GetOr(db[i])
  }

  /** `scored_documents` before sorting: one entry per corpus position. */
  function ScoreAll(db: seq<StoredDocument>, scores: seq<real>): seq<Scored>
    requires |scores| == |db|
  {
    seq(|db|, i requires 0 <= i < |db| => Scored(ResolvedDoc(db, i), scores[i], i))
  }

  /** Insert into a sequence sorted by `Precedes`. */
  function Insert(x: Scored, xs: seq<Scored>): (r: seq<Scored>)
    ensures multiset(r) == multiset(xs) + multiset{x}
    decreases |xs|
  {
    if xs == [] || Precedes(x, xs[0]) then [x] + xs
    else
      assert xs == [xs[0]] + xs[1..];
      [xs[0]] + Insert(x, xs[1..])
  }

  lemma {:induction false} InsertSorted(x: Scored, xs: seq<Scored>)
    requires SortedDesc(xs)
    requires forall k :: 0 <= k < |xs| ==> xs[k].rank != x.rank
    ensures SortedDesc(Insert(x, xs))
    decreases |xs|
  {
    if xs == [] || Precedes(x, xs[0]) {
    } else {
      var tail := xs[1..];
      InsertSorted(x, tail);
      var r := Insert(x, tail);
      assert Precedes(xs[0], x);
      forall k | 0 <= k < |r|
        ensures Precedes(xs[0], r[k])
      {
        assert r[k] in multiset(r);
        assert r[k] == x || r[k] in multiset(tail);
        if r[k] != x {
          var m :| 0 <= m < |tail| && tail[m] == r[k];
          assert tail[m] == xs[m + 1];
        }
      }
    }
  }

  /** Stable sort by descending score, as insertion sort. */
  function SortByScore(xs: seq<Scored>): (r: seq<Scored>)
    ensures multiset(r) == multiset(xs)
    decreases |xs|
  {
    if xs == [] then []
    else
      assert xs == [xs[0]] + xs[1..];
      Insert(xs[0], SortByScore(xs[1..]))
  }

  lemma {:induction false} SortByScoreSorted(xs: seq<Scored>)
    requires DistinctRanks(xs)
    ensures SortedDesc(SortByScore(xs))
    decreases |xs|
  {
    if xs != [] {
      var tail := xs[1..];
      SortByScoreSorted(tail);
      forall k | 0 <= k < |SortByScore(tail)|
        ensures SortByScore(tail)[k].rank != xs[0].rank
      {
        var y := SortByScore(tail)[k];
        assert y in multiset(SortByScore(tail));
        var m :| 0 <= m < |tail| && tail[m] == y;
        assert tail[m] == xs[m + 1];
      }
      InsertSorted(xs[0], SortByScore(tail));
    }
  }

  predicate AboveThreshold(e: Scored) {
    e.score > Threshold
  }

  /** The entries above the threshold, best first. */
  function RankRelevant(db: seq<StoredDocument>, scores: seq<real>): seq<Scored>
    requires |scores| == |db|
  {
    Select(SortByScore(ScoreAll(db, scores)), AboveThreshold)
  }

  /** `e` is corpus position `e.rank` with its own score and resolved document. */
  ghost predicate IsEntryOf(db: seq<StoredDocument>, scores: seq<real>, e: Scored)
    requires |scores| == |db|
  {
    e.rank < |db| && e.score == scores[e.rank] && e.doc == ResolvedDoc(db, e.rank)
  }

  lemma SortedEntries(db: seq<StoredDocument>, scores: seq<real>)
    requires |scores| == |db|
    ensures forall m :: 0 <= m < |SortByScore(ScoreAll(db, scores))| ==>
      IsEntryOf(db, scores, SortByScore(ScoreAll(db, scores))[m])
  {
    var all := ScoreAll(db, scores);
    var sorted := SortByScore(all);
    forall m | 0 <= m < |sorted|
      ensures IsEntryOf(db, scores, sorted[m])
    {
      assert sorted[m] in multiset(all);
      var j :| 0 <= j < |all| && all[j] == sorted[m];
    }
  }

  /** Every relevant entry is a corpus position scoring above the threshold. */
  lemma RankRelevantSound(db: seq<StoredDocument>, scores: seq<real>)
    requires |scores| == |db|
    ensures forall k :: 0 <= k < |RankRelevant(db, scores)| ==>
      IsEntryOf(db, scores, RankRelevant(db, scores)[k]) && RankRelevant(db, scores)[k].score > Threshold
  {
    var sorted := SortByScore(ScoreAll(db, scores));
    var keep := AboveThreshold;
    var idx := SelectKeepsOrder(sorted, keep);
    SortedEntries(db, scores);
    forall k | 0 <= k < |RankRelevant(db, scores)|
      ensures IsEntryOf(db, scores, RankRelevant(db, scores)[k])
    {
      assert RankRelevant(db, scores)[k] == sorted[idx[k]];
    }
  }

  /** Every corpus position scoring above the threshold is relevant. */
  lemma RankRelevantComplete(db: seq<StoredDocument>, scores: seq<real>)
    requires |scores| == |db|
    ensures forall i :: 0 <= i < |db| && scores[i] > Threshold ==>
      exists k :: 0 <= k < |RankRelevant(db, scores)| && RankRelevant(db, scores)[k].rank == i
  {
    var all := ScoreAll(db, scores);
    var sorted := SortByScore(all);
    var keep := AboveThreshold;
    var r := Select(sorted, keep);
    var idx := SelectKeepsOrder(sorted, keep);
    forall i | 0 <= i < |db| && scores[i] > Threshold
      ensures exists k :: 0 <= k < |r| && r[k].rank == i
    {
      assert all[i].rank == i && AboveThreshold(all[i]);
      assert all[i] in multiset(sorted);
      var m :| 0 <= m < |sorted| && sorted[m] == all[i];
      assert keep(sorted[m]);
      var k :| 0 <= k < |idx| && idx[k] == m;
      assert r[k] == all[i];
    }
    assert r == RankRelevant(db, scores);
  }

  /** The relevant entries come best first: by descending score, ties in corpus order. */
  lemma RankRelevantSorted(db: seq<StoredDocument>, scores: seq<real>)
    requires |scores| == |db|
    ensures SortedDesc(RankRelevant(db, scores))
  {
    var all := ScoreAll(db, scores);
    var sorted := SortByScore(all);
    var keep := AboveThreshold;
    var r := Select(sorted, keep);
    var idx := SelectKeepsOrder(sorted, keep);
    SortByScoreSorted(all);
    forall k, l | 0 <= k < l < |r|
      ensures Precedes(r[k], r[l])
    {
      assert r[k] == sorted[idx[k]] && r[l] == sorted[idx[l]];
    }
  }

  /** `relevant_docs` and `relevance_scores` after the fallback. */
  datatype Selection = Selection(docs: seq<StoredDocument>, scores: seq<real>)

  function SelectRelevant(db: seq<StoredDocument>, scores: seq<real>): (sel: Selection)
    requires |scores| == |db|
    ensures sel.docs == [] <==> db == []
    ensures forall k :: 0 <= k < |sel.docs| ==> sel.docs[k] in db
  {
    var ranked := RankRelevant(db, scores);
    RankRelevantSound(db, scores);
    if ranked == [] then Selection(Take(db, FallbackCount), FallbackScores)
    else Selection(seq(|ranked|, k requires 0 <= k < |ranked| => ranked[k].doc),
                   seq(|ranked|, k requires 0 <= k < |ranked| => ranked[k].score))
  }

  /** With no score above the threshold, the first two stored documents are used with fixed scores. */
  lemma FallbackSelection(db: seq<StoredDocument>, scores: seq<real>)
    requires |scores| == |db|
    requires forall i :: 0 <= i < |db| ==> scores[i] <= Threshold
    ensures SelectRelevant(db, scores) == Selection(Take(db, FallbackCount), FallbackScores)
  {
    var sorted := SortByScore(ScoreAll(db, scores));
    SortedEntries(db, scores);
    assert forall m :: 0 <= m < |sorted| ==> !AboveThreshold(sorted[m]);
    SelectNone(sorted, AboveThreshold);
  }

  /**
   * Otherwise the selection lists exactly the relevant entries, best first,
   * with their scores: entry k is corpus position `ranks[k]`, every position
   * scoring above the threshold appears, and positions come by descending
   * score with ties in corpus order.
   */
  lemma RankedSelection(db: seq<StoredDocument>, scores: seq<real>) returns (ranks: seq<nat>)
    requires |scores| == |db|
    requires exists i :: 0 <= i < |db| && scores[i] > Threshold
    ensures |SelectRelevant(db, scores).docs| == |SelectRelevant(db, scores).scores| > 0
    ensures forall k :: 0 <= k < |SelectRelevant(db, scores).scores| ==> SelectRelevant(db, scores).scores[k] > Threshold
    ensures forall k, l :: 0 <= k < l < |SelectRelevant(db, scores).scores| ==>
      SelectRelevant(db, scores).scores[k] >= SelectRelevant(db, scores).scores[l]
    ensures |ranks| == |SelectRelevant(db, scores).docs|
    ensures forall k :: 0 <= k < |ranks| ==>
      && ranks[k] < |db| && scores[ranks[k]] > Threshold
      && SelectRelevant(db, scores).docs[k] == ResolvedDoc(db, ranks[k])
      && SelectRelevant(db, scores).scores[k] == scores[ranks[k]]
    ensures forall i :: 0 <= i < |db| && scores[i] > Threshold ==> i in ranks
    ensures forall k, l :: 0 <= k < l < |ranks| ==>
      scores[ranks[k]] > scores[ranks[l]] || (scores[ranks[k]] == scores[ranks[l]] && ranks[k] < ranks[l])
  {
    var ranked := RankRelevant(db, scores);
    assert ranked != [] by {
      RankRelevantComplete(db, scores);
      var i :| 0 <= i < |db| && scores[i] > Threshold;
      assert exists k :: 0 <= k < |ranked| && ranked[k].rank == i;
    }
    var sel := SelectRelevant(db, scores);
    ranks := seq(|ranked|, k requires 0 <= k < |ranked| => ranked[k].rank);
    RankRelevantSound(db, scores);
    assert forall k :: 0 <= k < |ranked| ==>
      sel.docs[k] == ranked[k].doc && sel.scores[k] == ranked[k].score && ranks[k] == ranked[k].rank;
    assert SortedDesc(ranked) by {
      RankRelevantSorted(db, scores);
    }
    forall i | 0 <= i < |db| && scores[i] > Threshold
      ensures i in ranks
    {
      RankRelevantComplete(db, scores);
      var k :| 0 <= k < |ranked| && ranked[k].rank == i;
      assert ranks[k] == i;
    }
  }

  // ----------------------------------------------------------------- templates

  /** Which summary template answers the query. */
  datatype Topic = ContractLaw | Privacy | Employment | General(source: string)

  /** The generated summary: its template and the query it quotes. */
  datatype Summary = Summary(topic: Topic, query: string)

  const ContractWords: seq<string> := ["contract", "breach", "agreement", "lease"]
  const PrivacyWords: seq<string> := ["privacy", "data", "ccpa", "personal information"]
  const EmploymentWords: seq<string> := ["employment", "termination", "wrongful", "employee"]
  const DefaultSource: string := "case law"

  /** `generate_mock_summary`: contract words win over privacy words, which win over employment words. */
  function MockSummary(query: string, docs: seq<StoredDocument>): (r: Summary)
    ensures r.query == query
    ensures r.topic.General? ==> r.topic.source == if docs == [] then DefaultSource else docs[0].title
  {
    var ql := Lower(query);
    var topic :=
      if MentionsAny(ql, ContractWords) then ContractLaw
      else if MentionsAny(ql, PrivacyWords) then Privacy
      else if MentionsAny(ql, EmploymentWords) then Employment
      else General(if docs == [] then DefaultSource else docs[0].title);
    Summary(topic, query)
  }

  /** The template choice ignores ASCII case. */
  lemma MockSummaryIgnoresCase(q1: string, q2: string, docs: seq<StoredDocument>)
    requires Lower(q1) == Lower(q2)
    ensures MockSummary(q1, docs).topic == MockSummary(q2, docs).topic
  {
  }

  /**
   * The template is chosen by priority: a contract word decides whatever else
   * the query says, a privacy word decides when no contract word occurs, and
   * so on; the general template appears only when no listed word occurs.
   */
  lemma MockSummaryPriority(query: string, docs: seq<StoredDocument>)
    ensures MockSummary(query, docs).topic == ContractLaw <==> MentionsAny(Lower(query), ContractWords)
    ensures MockSummary(query, docs).topic == Privacy <==>
      !MentionsAny(Lower(query), ContractWords) && MentionsAny(Lower(query), PrivacyWords)
    ensures MockSummary(query, docs).topic == Employment <==>
      !MentionsAny(Lower(query), ContractWords) && !MentionsAny(Lower(query), PrivacyWords)
      && MentionsAny(Lower(query), EmploymentWords)
    ensures MockSummary(query, docs).topic.General? <==>
      !MentionsAny(Lower(query), ContractWords + PrivacyWords + EmploymentWords)
  {
    var ql := Lower(query);
    var all := ContractWords + PrivacyWords + EmploymentWords;
    if MentionsAny(ql, all) {
      var k :| 0 <= k < |all| && Contains(ql, all[k]);
      if k < 4 {
        assert all[k] == ContractWords[k];
      } else if k < 8 {
        assert all[k] == PrivacyWords[k - 4];
      } else {
        assert all[k] == EmploymentWords[k - 8];
      }
    }
    if MentionsAny(ql, ContractWords) {
      var k :| 0 <= k < 4 && Contains(ql, ContractWords[k]);
      assert all[k] == ContractWords[k];
    } else if MentionsAny(ql, PrivacyWords) {
      var k :| 0 <= k < 4 && Contains(ql, PrivacyWords[k]);
      assert all[k + 4] == PrivacyWords[k];
    } else if MentionsAny(ql, EmploymentWords) {
      var k :| 0 <= k < 4 && Contains(ql, EmploymentWords[k]);
      assert all[k + 8] == EmploymentWords[k];
    }
  }

  /** "Data breach" gets the contract template although "data" is a privacy word. */
  lemma DataBreachIsContract()
    ensures MockSummary("Data breach", []).topic == ContractLaw
  {
    var ql := Lower("Data breach");
    assert ql[5..11] == "breach";
    assert OccursAt("breach", ql, 5);
    ContainsIff(ql, "breach");
    assert Contains(ql, ContractWords[1]);
  }

  // ---------------------------------------------------------------- key points

  const CaseLawPoints: string := "Establishes precedent on implied contract formation; demonstrates how employer policies can create enforceable obligations"
  const ContractPoints: string := "Details comprehensive lease terms including rent escalation, maintenance obligations, and early termination provisions"
  const StatutePoints: string := "Grants consumers rights to access, delete, and control sale of personal information; establishes enforcement mechanisms"
  const GenericPoints: string := "Relevant legal document providing guidance on applicable law and precedent"

  /** `generate_key_points`: total over every category, missing ones included. */
  function KeyPoints(category: Option<string>): (r: string)
    ensures r == CaseLawPoints <==> category == Some("case_law")
    ensures r == ContractPoints <==> category == Some("contract")
    ensures r == StatutePoints <==> category == Some("statute")
    ensures r == GenericPoints <==> category.GetOr("") !in {"case_law", "contract", "statute"}
  {
    var c := category.GetOr("");
    if c == "case_law" then CaseLawPoints
    else if c == "contract" then ContractPoints
    else if c == "statute" then StatutePoints
    else GenericPoints
  }

  // ------------------------------------------------------------------ response

  /** One listed document. The percentage conversion of the score is not modelled. */
  datatype DocumentSummary = DocumentSummary(id: string, title: string, score: real, keyPoints: string)

  datatype SearchResponse = SearchResponse(
    summary: Summary,
    relevantDocuments: seq<DocumentSummary>,
    legalConcepts: seq<string>)

  /** `zip(relevant_docs[:3], relevance_scores[:3])` turned into document summaries. */
  function ListDocuments(sel: Selection): (r: seq<DocumentSummary>)
    ensures |r| <= MaxListed
    ensures |r| == if |sel.docs| < |sel.scores| then |Take(sel.docs, MaxListed)| else |Take(sel.scores, MaxListed)|
    ensures forall k :: 0 <= k < |r| ==>
      r[k] == DocumentSummary(sel.docs[k].id, sel.docs[k].title, sel.scores[k], KeyPoints(sel.docs[k].category))
  {
    var docs := Take(sel.docs, MaxListed);
    var scores := Take(sel.scores, MaxListed);
    var n := if |docs| < |scores| then |docs| else |scores|;
    seq(n, k requires 0 <= k < n =>
      DocumentSummary(docs[k].id, docs[k].title, scores[k], KeyPoints(docs[k].category)))
  }

  /**
   * `POST /generate` with the cosine similarities of the query supplied as
   * `scores` (one per stored document).
   */
  method GenerateSearchResults(query: string, db: seq<StoredDocument>, scores: seq<real>)
    returns (r: Result<SearchResponse, HttpError>)
    requires |scores| == |db|
    ensures (forall i :: 0 <= i < |query| ==> IsPySpace(query[i])) ==> r == Failure(EmptyQuery)
    ensures CheckQuery(query).None? && db == [] ==> r == Failure(NotInitialized)
    ensures r.Success? <==> CheckQuery(query).None? && db != []
    ensures r.Success? ==>
      var sel := SelectRelevant(db, scores);
      && r.value.summary == MockSummary(query, sel.docs)
      && r.value.relevantDocuments == ListDocuments(sel)
      && 0 < |r.value.relevantDocuments| <= MaxListed
      && |r.value.legalConcepts| <= Concepts.MaxConcepts
      && (forall k :: 0 <= k < |r.value.legalConcepts| ==> Concepts.IsConcept(query, sel.docs, r.value.legalConcepts[k]))
      && (|r.value.legalConcepts| < Concepts.MaxConcepts ==>
            forall c :: Concepts.IsConcept(query, sel.docs, c) ==> c in r.value.legalConcepts)
  {
    var invalid := CheckQuery(query);
    if invalid.Some? {
      return Failure(invalid.value);
    }
    if db == [] {
      return Failure(NotInitialized);
    }
    var sel := SelectRelevant(db, scores);
    if forall i :: 0 <= i < |db| ==> scores[i] <= Threshold {
      FallbackSelection(db, scores);
    } else {
      var _ := RankedSelection(db, scores);
    }
    var concepts := Concepts.ExtractConcepts(query, sel.docs);
    r := Success(SearchResponse(MockSummary(query, sel.docs), ListDocuments(sel), concepts));
  }
}

=== FILE: card.dfy ===
/** The document card: category badge, title fallback, keyword row and detail link. */
module Card {
  import opened Wrappers
  import opened Text
  import opened Seqs
  import opened Documents

  const BadgeBase: string := "px-3 py-1 rounded-full text-xs font-semibold border "
  const GrayBadge: string := "bg-gray-100 text-gray-800 border-gray-300"

  /** Badge colours of the five known categories. */
  const CategoryColors: map<string, string> := map[
    "case_law" := "bg-blue-100 text-blue-800 border-blue-300",
    "contract" := "bg-green-100 text-green-800 border-green-300",
    "statute" := "bg-purple-100 text-purple-800 border-purple-300",
    "regulation" := "bg-orange-100 text-orange-800 border-orange-300",
    "brief" := "bg-pink-100 text-pink-800 border-pink-300"]

  /**
   * The properties a plain object literal inherits from `Object.prototype`:
   * indexing `categoryColors` with one of these yields that member, not
   * `undefined`, so the `??` fallback does not apply.
   */
  const PrototypeKeys: set<string> := {
    "constructor", "hasOwnProperty", "isPrototypeOf", "propertyIsEnumerable",
    "toLocaleString", "toString", "valueOf", "__proto__",
    "__defineGetter__", "__defineSetter__", "__lookupGetter__", "__lookupSetter__"}

  const DetailPath: string := "/document-detail?id="

  /**
   * The colour part of the badge class: a missing category is looked up as
   * "unknown"; a known category gets its colour, a name inherited from
   * `Object.prototype` gets that member (`None` here: its string form is
   * not modelled), and every other category gets gray.
   */
  function BadgeColor(category: Option<string>): (r: Option<string>)
    ensures r == Some(GrayBadge) <==>
      category.None? || (category.value !in CategoryColors && category.value !in PrototypeKeys)
    ensures r.None? <==> category.Some? && category.value in PrototypeKeys
    ensures category.Some? && category.value in CategoryColors ==> r == Some(CategoryColors[category.value])
  {
    var key := category.GetOr("unknown");
    if key in CategoryColors then Some(CategoryColors[key])
    else if key in PrototypeKeys then None
    else Some(GrayBadge)
  }

  /** The whole badge class, when its colour part is modelled. */
  function BadgeClass(category: Option<string>): Option<string> {
    match BadgeColor(category)
    case Some(color) => Some(BadgeBase + color)
    case None => None
  }

  /** "constructor" is not a colour key, yet the lookup finds an inherited member and the badge is not gray. */
  lemma InheritedKeyIsNotGray()
    ensures BadgeColor(Some("constructor")) != Some(GrayBadge)
    ensures BadgeColor(Some("unknown_kind")) == Some(GrayBadge)
  {
  }

  /** The badge text: the category (or "UNKNOWN") with underscores as spaces, in upper case. */
  function CategoryLabel(category: Option<string>): (r: string)
    ensures |r| == |category.GetOr("UNKNOWN")|
    ensures forall i :: 0 <= i < |r| ==> r[i] != '_' && !IsLower(r[i])
    ensures forall i :: 0 <= i < |r| ==>
      var c := category.GetOr("UNKNOWN")[i];
      if c == '_' then r[i] == ' ' else LowerChar(r[i]) == LowerChar(c)
  {
    Upper(Replace(category.GetOr("UNKNOWN"), '_', ' '))
  }

  /** The known category values display as their human names. */
  lemma KnownCategoryLabels()
    ensures CategoryLabel(Some("case_law")) == "CASE LAW"
    ensures CategoryLabel(Some("contract")) == "CONTRACT"
    ensures CategoryLabel(None) == "UNKNOWN"
  {
    assert Replace("case_law", '_', ' ') == "case law";
    assert Upper("case law") == "CASE LAW";
    assert Upper("contract") == "CONTRACT";
    assert Upper("UNKNOWN") == "UNKNOWN";
  }

  /** A missing category shows "UNKNOWN" on a gray badge, even though "UNKNOWN" is not a key. */
  lemma MissingCategoryIsGrayUnknown()
    ensures CategoryLabel(None) == "UNKNOWN"
    ensures BadgeClass(None) == Some(BadgeBase + GrayBadge)
  {
    KnownCategoryLabels();
  }

  /** `title ?? 'Untitled'`: only a missing title is replaced; an empty one stays empty. */
  function TitleText(title: Option<string>): (r: string)
    ensures title.Some? ==> r == title.value
    ensures title.None? ==> r == "Untitled"
  {
    title.GetOr("Untitled")
  }

  /**
   * The keyword row: absent when keywords are missing or empty, otherwise
   * the first (at most) three keywords in order.
   */
  function KeywordRow(keywords: Option<seq<string>>): (r: Option<seq<string>>)
    ensures r.Some? <==> keywords.Some? && |keywords.value| > 0
    ensures r.Some? ==> 0 < |r.value| <= 3 && r.value <= keywords.value
    ensures r.Some? && |keywords.value| >= 3 ==> |r.value| == 3
    ensures r.Some? && |keywords.value| < 3 ==> r.value == keywords.value
  {
    if keywords.Some? && |keywords.value| > 0 then Some(Take(keywords.value, 3)) else None
  }

  /** The link to the detail page: the id is appended verbatim, without URL encoding. */
  function DetailHref(id: string): string {
    DetailPath + id
  }

  /** Reads the id back out of a detail link, if it is one. */
  function ParseDetailHref(href: string): Option<string> {
    if DetailPath <= href then Some(href[|DetailPath|..]) else None
  }

  /** Every id survives the link unchanged, so distinct documents get distinct links. */
  lemma DetailHrefRoundTrip(id: string)
    ensures ParseDetailHref(DetailHref(id)) == Some(id)
  {
    assert DetailHref(id)[|DetailPath|..] == id;
  }

  lemma DetailHrefInjective(a: string, b: string)
    requires DetailHref(a) == DetailHref(b)
    ensures a == b
  {
    DetailHrefRoundTrip(a);
    DetailHrefRoundTrip(b);
  }

  /** What a card displays for one document. */
  datatype CardView = CardView(
    badgeClass: Option<string>,
    badgeText: string,
    title: string,
    caseNumber: Option<string>,
    summary: Option<string>,
    keywords: Option<seq<string>>,
    href: string)

  /** The card for a document; the case number and summary rows need non-empty text. */
  function Render(d: Document): (v: CardView)
    ensures v.caseNumber.Some? <==> Truthy(d.caseNumber)
    ensures v.summary.Some? <==> Truthy(d.summary)
    ensures v.caseNumber.Some? ==> v.caseNumber == d.caseNumber
    ensures v.summary.Some? ==> v.summary == d.summary
    ensures ParseDetailHref(v.href) == Some(d.id)
    ensures v.badgeText == CategoryLabel(d.category) && v.badgeClass == BadgeClass(d.category)
    ensures v.title == TitleText(d.title) && v.keywords == KeywordRow(d.keywords)
  {
    DetailHrefRoundTrip(d.id);
    CardView(
      BadgeClass(d.category),
      CategoryLabel(d.category),
      TitleText(d.title),
      if Truthy(d.caseNumber) then d.caseNumber else None,
      if Truthy(d.summary) then d.summary else None,
      KeywordRow(d.keywords),
      DetailHref(d.id))
  }
}

=== FILE: concepts.dfy ===
/**
 * Legal-concept extraction for a search: concept names whose keywords occur
 * in the query, plus title-cased keywords of the first two relevant documents,
 * at most five of them.
 */
module Concepts {
  import opened Wrappers
  import opened Text
  import opened Store

  /** A concept name and the query keywords that evoke it. */
  datatype ConceptRule = ConceptRule(name: string, keywords: seq<string>)

  /** The concept table, in its declared order. */
  const ConceptTable: seq<ConceptRule> := [
    ConceptRule("Breach of Contract", ["breach", "contract", "agreement", "violation"]),
    ConceptRule("Implied Contract", ["implied", "handbook", "policy", "expectation"]),
    ConceptRule("At-Will Employment", ["at-will", "employment", "termination", "fire"]),
    ConceptRule("Consumer Privacy Rights", ["privacy", "data", "personal information", "ccpa"]),
    ConceptRule("Right to Delete", ["delete", "removal", "erasure", "data"]),
    ConceptRule("Commercial Lease", ["lease", "rent", "landlord", "tenant"]),
    ConceptRule("Progressive Discipline", ["discipline", "warning", "progressive", "termination"]),
    ConceptRule("Damages and Remedies", ["damages", "remedy", "compensation", "penalty"]),
    ConceptRule("Good Faith", ["good faith", "fair dealing", "honest"]),
    ConceptRule("Legal Compliance", ["compliance", "statute", "regulation", "law"])]

  const MaxConcepts: nat := 5

  /** Documents and keywords per document that contribute keyword concepts. */
  const KeywordDocs: nat := 2
  const KeywordsPerDoc: nat := 2

  /**
   * Python's `str.title()` on ASCII, scanning left to right: a letter is
   * upper-cased after a non-letter (or at the start) and lower-cased after a letter.
   */
  function TitleFrom(s: string, afterLetter: bool): (r: string)
    ensures |r| == |s|
    decreases |s|
  {
    if s == [] then []
    else
      var c := s[0];
      var head := if !IsLetter(c) then c else if afterLetter then LowerChar(c) else UpperChar(c);
      [head] + TitleFrom(s[1..], IsLetter(c))
  }

  function TitleCase(s: string): string {
    TitleFrom(s, false)
  }

  /** The character `TitleCase` puts at position `i`, stated per position. */
  ghost function TitleCharAt(s: string, i: int): char
    requires 0 <= i < |s|
  {
    if !IsLetter(s[i]) then s[i]
    else if i > 0 && IsLetter(s[i - 1]) then LowerChar(s[i])
    else UpperChar(s[i])
  }

  lemma {:induction false} TitleFromSpec(s: string, afterLetter: bool)
    ensures forall i :: 0 < i < |s| ==> TitleFrom(s, afterLetter)[i] == TitleCharAt(s, i)
    ensures |s| > 0 ==> TitleFrom(s, afterLetter)[0]
                        == (if !IsLetter(s[0]) then s[0] else if afterLetter then LowerChar(s[0]) else UpperChar(s[0]))
    decreases |s|
  {
    if s != [] {
      var t := s[1..];
      TitleFromSpec(t, IsLetter(s[0]));
      forall i | 0 < i < |s|
        ensures TitleFrom(s, afterLetter)[i] == TitleCharAt(s, i)
      {
        assert TitleFrom(s, afterLetter)[i] == TitleFrom(t, IsLetter(s[0]))[i - 1];
        if i > 1 {
          assert TitleCharAt(t, i - 1) == TitleCharAt(s, i);
        }
      }
    }
  }

  /** Each letter is upper-cased exactly when it starts a run of letters; other characters are kept. */
  lemma TitleCaseSpec(s: string)
    ensures |TitleCase(s)| == |s|
    ensures forall i :: 0 <= i < |s| ==> TitleCase(s)[i] == TitleCharAt(s, i)
  {
    TitleFromSpec(s, false);
  }

  /** Example: hyphens separate words, as in "at-will" becoming "At-Will". */
  lemma TitleCaseExample()
    ensures TitleCase("at-will") == "At-Will"
  {
    var s := "at-will";
    TitleCaseSpec(s);
    var t := TitleCase(s);
    assert t[0] == 'A' && t[1] == 't' && t[2] == '-' && t[3] == 'W';
    assert t[4] == 'i' && t[5] == 'l' && t[6] == 'l';
  }

  /** Concept `c` is the name of a rule with a keyword occurring in the lowercased query. */
  ghost predicate FromQuery(query: string, c: string) {
    exists k :: 0 <= k < |ConceptTable| && ConceptTable[k].name == c && MentionsAny(Lower(query), ConceptTable[k].keywords)
  }

  /** Concept `c` is the title-cased keyword `k` of document `j`. */
  ghost predicate KeywordTitleAt(docs: seq<StoredDocument>, j: int, k: int, c: string) {
    0 <= j < |docs| && docs[j].keywords.Some? && 0 <= k < |docs[j].keywords.value|
    && TitleCase(docs[j].keywords.value[k]) == c
  }

  /** Concept `c` comes from one of the first two keywords of one of the first two documents. */
  ghost predicate FromKeywords(docs: seq<StoredDocument>, c: string) {
    exists j, k :: 0 <= j < KeywordDocs && 0 <= k < KeywordsPerDoc && KeywordTitleAt(docs, j, k, c)
  }

  ghost predicate IsConcept(query: string, docs: seq<StoredDocument>, c: string) {
    FromQuery(query, c) || FromKeywords(docs, c)
  }

  /** The first loop: the names of the rules whose keywords occur in the lowercased query. */
  method QueryConcepts(query: string) returns (found: set<string>)
    ensures forall c :: c in found <==> FromQuery(query, c)
  {
    var ql := Lower(query);
    found := {};
    var i := 0;
    while i < |ConceptTable|
      invariant 0 <= i <= |ConceptTable|
      invariant forall c :: c in found <==>
        exists k :: 0 <= k < i && ConceptTable[k].name == c && MentionsAny(ql, ConceptTable[k].keywords)
    {
      if MentionsAny(ql, ConceptTable[i].keywords) {
        found := found + {ConceptTable[i].name};
      }
      i := i + 1;
    }
  }

  /** The inner loop: adds the title-cased first two keywords of document `j`. */
  method AddDocumentKeywords(found: set<string>, docs: seq<StoredDocument>, j: nat) returns (r: set<string>)
    requires j < |docs|
    ensures forall c :: c in r <==> c in found || exists k :: 0 <= k < KeywordsPerDoc && KeywordTitleAt(docs, j, k, c)
  {
    r := found;
    if docs[j].keywords.Some? {
      var words := docs[j].keywords.value;
      var k := 0;
      while k < |words| && k < KeywordsPerDoc
        invariant 0 <= k <= KeywordsPerDoc
        invariant forall c :: c in r <==> c in found || exists kk :: 0 <= kk < k && KeywordTitleAt(docs, j, kk, c)
      {
        r := r + {TitleCase(words[k])};
        assert KeywordTitleAt(docs, j, k, TitleCase(words[k]));
        k := k + 1;
      }
    }
  }

  /** The outer loop over the first two documents. */
  method AddKeywordConcepts(found: set<string>, docs: seq<StoredDocument>) returns (r: set<string>)
    ensures forall c :: c in r <==> c in found || FromKeywords(docs, c)
  {
    r := found;
    var j := 0;
    while j < |docs| && j < KeywordDocs
      invariant 0 <= j <= KeywordDocs
      invariant forall c :: c in r <==>
        c in found || exists jj, k :: 0 <= jj < j && 0 <= k < KeywordsPerDoc && KeywordTitleAt(docs, jj, k, c)
    {
      r := AddDocumentKeywords(r, docs, j);
      j := j + 1;
    }
  }

  /** `list(concepts)[:5]`: at most `n` distinct members of `found`, all of them when fewer than `n` are listed. */
  method PickAtMost(found: set<string>, n: nat) returns (r: seq<string>)
    ensures |r| <= n
    ensures forall k :: 0 <= k < |r| ==> r[k] in found
    ensures forall k, l :: 0 <= k < l < |r| ==> r[k] != r[l]
    ensures |r| < n ==> forall c :: c in found ==> c in r
  {
    r := [];
    var rest := found;
    while |r| < n && rest != {}
      invariant |r| <= n
      invariant forall c :: c in found <==> c in rest || c in r
      invariant forall k :: 0 <= k < |r| ==> r[k] !in rest
      invariant forall k, l :: 0 <= k < l < |r| ==> r[k] != r[l]
      decreases |rest|
    {
      var c :| c in rest;
      r := r + [c];
      rest := rest - {c};
    }
  }

  /**
   * `extract_legal_concepts`: collects the candidate set, then lists at most
   * five distinct members of it.  Which five survive depends on Python's set
   * iteration order, so the choice is left open.
   */
  method ExtractConcepts(query: string, docs: seq<StoredDocument>) returns (r: seq<string>)
    ensures |r| <= MaxConcepts
    ensures forall k :: 0 <= k < |r| ==> IsConcept(query, docs, r[k])
    ensures forall k, l :: 0 <= k < l < |r| ==> r[k] != r[l]
    ensures |r| < MaxConcepts ==> forall c :: IsConcept(query, docs, c) ==> c in r
  {
    var found := QueryConcepts(query);
    found := AddKeywordConcepts(found, docs);
    r := PickAtMost(found, MaxConcepts);
  }
}

=== FILE: detail_export.dfy ===
/**
 * The document detail page's PDF export and its AI-summary adapter.  The
 * export is written as the page writes it, a sequence of pen steps; the
 * lemmas give the resulting layout in closed form.  Text wrapping and date
 * formatting are parameters.
 */
module DetailExport {
  import opened Wrappers
  import opened Text
  import opened Seqs
  import opened Documents
  import opened Pdf
  import Card

  const TitleGap: int := 10
  const SectionGap: int := 5
  const HeaderKeywords: nat := 3
  const HeaderSeparator: string := " | "
  const SummaryHeading: string := "Summary:"
  const ContentHeading: string := "Full Document Content:"

  /** The header items: the category, then at most three keywords, all upper-cased. */
  function HeaderParts(d: LegalDocument): (r: seq<string>)
    ensures |r| >= 1 && r[0] == Card.CategoryLabel(Some(d.category))
    ensures var kws := d.keywords.GetOr([]);
      && |r| == 1 + (if |kws| < HeaderKeywords then |kws| else HeaderKeywords)
      && forall k :: 1 <= k < |r| ==> r[k] == Upper(kws[k - 1])
  {
    var kws := Take(d.keywords.GetOr([]), HeaderKeywords);
    [Upper(Replace(d.category, '_', ' '))] + seq(|kws|, k requires 0 <= k < |kws| => Upper(kws[k]))
  }

  function HeaderLine(d: LegalDocument): string {
    Join(HeaderParts(d), HeaderSeparator)
  }

  lemma JoinStartsWithFirst(parts: seq<string>, sep: string)
    requires |parts| >= 1
    ensures parts[0] <= Join(parts, sep)
  {
  }

  /**
   * The header line begins with the same category label the document card
   * shows, and is exactly that label when there are no keywords.
   */
  lemma HeaderStartsWithLabel(d: LegalDocument)
    ensures Card.CategoryLabel(Some(d.category)) <= HeaderLine(d)
    ensures d.keywords.GetOr([]) == [] ==> HeaderLine(d) == Card.CategoryLabel(Some(d.category))
  {
    JoinStartsWithFirst(HeaderParts(d), HeaderSeparator);
  }

  /** The optional metadata fields, in the order the export prints them. */
  datatype Field = CaseNumber | Court | Date | Jurisdiction | Parties

  const FieldOrder: seq<Field> := [CaseNumber, Court, Date, Jurisdiction, Parties]

  function FieldRank(f: Field): nat {
    match f
    case CaseNumber => 0
    case Court => 1
    case Date => 2
    case Jurisdiction => 3
    case Parties => 4
  }

  function FieldValue(d: LegalDocument, f: Field): Option<string> {
    match f
    case CaseNumber => d.caseNumber
    case Court => d.court
    case Date => d.date
    case Jurisdiction => d.jurisdiction
    case Parties => d.parties
  }

  /** The printed line of a field; the date goes through the date formatter. */
  function FieldLine(d: LegalDocument, f: Field, formatDate: string -> string): string {
    var v := FieldValue(d, f).GetOr("");
    match f
    case CaseNumber => "Case Number: " + v
    case Court => "Court: " + v
    case Date => "Date: " + formatDate(v)
    case Jurisdiction => "Jurisdiction: " + v
    case Parties => "Parties: " + v
  }

  /** A field is printed when it is present and non-empty. */
  predicate Shown(d: LegalDocument, f: Field) {
    Truthy(FieldValue(d, f))
  }

  function ShownFields(d: LegalDocument, fields: seq<Field>): (r: seq<Field>)
    ensures forall k :: 0 <= k < |r| ==> Shown(d, r[k])
  {
    Select(fields, f => Shown(d, f))
  }

  /** The printed fields appear exactly when present, each once, in the fixed order. */
  lemma ShownFieldsSpec(d: LegalDocument)
    ensures var r := ShownFields(d, FieldOrder);
      && (forall f :: f in r <==> Shown(d, f))
      && (forall k, l :: 0 <= k < l < |r| ==> FieldRank(r[k]) < FieldRank(r[l]))
  {
    var idx := SelectKeepsOrder(FieldOrder, f => Shown(d, f));
    var r := ShownFields(d, FieldOrder);
    assert forall i :: 0 <= i < |FieldOrder| ==> FieldRank(FieldOrder[i]) == i;
    forall f
      ensures f in r <==> Shown(d, f)
    {
      assert FieldOrder[FieldRank(f)] == f;
    }
  }

  /** The metadata block in closed form: field `k` at `y + 7k` on `page`. */
  function FieldBlock(d: LegalDocument, shown: seq<Field>, page: nat, y: int, formatDate: string -> string): (r: seq<Placed>)
    ensures |r| == |shown|
    ensures forall k :: 0 <= k < |r| ==> r[k].page == page && r[k].y == y + LineHeight * k
  {
    seq(|shown|, k requires 0 <= k < |shown| => Placed(page, y + LineHeight * k, [FieldLine(d, shown[k], formatDate)]))
  }

  /** The run of `if (field) { doc.text(...); yPos += lineHeight }` steps over `fields`. */
  function WriteFields(p: Pen, d: LegalDocument, fields: seq<Field>, formatDate: string -> string): (q: Pen)
    ensures q.placed == p.placed + FieldBlock(d, ShownFields(d, fields), p.at.page, p.at.y, formatDate)
    ensures q.at == Cursor(p.at.page, p.at.y + LineHeight * |ShownFields(d, fields)|)
    decreases |fields|
  {
    if fields == [] then p
    else
      var init := fields[..|fields| - 1];
      var f := fields[|fields| - 1];
      var q := WriteFields(p, d, init, formatDate);
      ghost var before := ShownFields(d, init);
      assert ShownFields(d, fields) == if Shown(d, f) then before + [f] else before;
      if Shown(d, f) then
        var r := Advance(Write(q, [FieldLine(d, f, formatDate)]), LineHeight);
        assert FieldBlock(d, before + [f], p.at.page, p.at.y, formatDate)
            == FieldBlock(d, before, p.at.page, p.at.y, formatDate) + [Placed(q.at.page, q.at.y, [FieldLine(d, f, formatDate)])];
        r
      else q
  }

  /** The summary section, present only for a non-empty summary. */
  function SummaryBlock(d: LegalDocument, wrap: string -> seq<string>, page: nat, y: int): (r: seq<Placed>)
    ensures forall k :: 0 <= k < |r| ==> r[k].page == page
  {
    if Truthy(d.summary) then [Placed(page, y, [SummaryHeading]), Placed(page, y + LineHeight, wrap(d.summary.value))]
    else []
  }

  /** How far the summary section moves the cursor: 7 + 7 per wrapped line + 5, or nothing. */
  function SummaryHeight(d: LegalDocument, wrap: string -> seq<string>): int {
    if Truthy(d.summary) then LineHeight + LineHeight * |wrap(d.summary.value)| + SectionGap else 0
  }

  /** `if (legalDocument.summary) { ... }`: heading, wrapped summary, and no page-break check. */
  function WriteSummary(p: Pen, d: LegalDocument, wrap: string -> seq<string>): (q: Pen)
    ensures q.placed == p.placed + SummaryBlock(d, wrap, p.at.page, p.at.y)
    ensures q.at == Cursor(p.at.page, p.at.y + SummaryHeight(d, wrap))
  {
    if Truthy(d.summary) then
      var lines := wrap(d.summary.value);
      Advance(Write(Advance(Write(p, [SummaryHeading]), LineHeight), lines), LineHeight * |lines| + SectionGap)
    else p
  }

  /** The y of the content heading: after title, header, shown fields, gap and summary. */
  function ContentY(d: LegalDocument, wrap: string -> seq<string>): int {
    Margin + 2 * TitleGap + LineHeight * |ShownFields(d, FieldOrder)| + SectionGap + SummaryHeight(d, wrap)
  }

  /** Everything `handleExport` writes before the content loop, step by step. */
  function Preamble(d: LegalDocument, wrap: string -> seq<string>, formatDate: string -> string): Pen
  {
    var p1 := Advance(Write(Fresh, [d.title]), TitleGap);
    var p2 := Advance(Write(p1, [HeaderLine(d)]), TitleGap);
    var p3 := Advance(WriteFields(p2, d, FieldOrder, formatDate), SectionGap);
    var p4 := WriteSummary(p3, d, wrap);
    Advance(Write(p4, [ContentHeading]), LineHeight)
  }

  /**
   * The layout before the content in closed form: title at 10, header at 20,
   * the shown fields from 30 in steps of 7, the summary section 5 lower, then
   * the content heading; all of it on the first page.
   */
  lemma PreambleSpec(d: LegalDocument, wrap: string -> seq<string>, formatDate: string -> string)
    ensures var p := Preamble(d, wrap, formatDate);
      var shown := ShownFields(d, FieldOrder);
      var fieldsY := Margin + 2 * TitleGap;
      && p.placed == [Placed(1, Margin, [d.title]), Placed(1, Margin + TitleGap, [HeaderLine(d)])]
                     + FieldBlock(d, shown, 1, fieldsY, formatDate)
                     + SummaryBlock(d, wrap, 1, fieldsY + LineHeight * |shown| + SectionGap)
                     + [Placed(1, ContentY(d, wrap), [ContentHeading])]
      && p.at == Cursor(1, ContentY(d, wrap) + LineHeight)
      && forall k :: 0 <= k < |p.placed| ==> p.placed[k].page == 1
  {
    var shown := ShownFields(d, FieldOrder);
    var fieldsY := Margin + 2 * TitleGap;
    var p1 := Advance(Write(Fresh, [d.title]), TitleGap);
    var p2 := Advance(Write(p1, [HeaderLine(d)]), TitleGap);
    assert p2.placed == [Placed(1, Margin, [d.title]), Placed(1, Margin + TitleGap, [HeaderLine(d)])];
    assert p2.at == Cursor(1, fieldsY);
    var fields := FieldBlock(d, shown, 1, fieldsY, formatDate);
    var p3 := Advance(WriteFields(p2, d, FieldOrder, formatDate), SectionGap);
    assert p3.placed == p2.placed + fields;
    assert p3.at == Cursor(1, fieldsY + LineHeight * |shown| + SectionGap);
    var summary := SummaryBlock(d, wrap, 1, p3.at.y);
    var p4 := WriteSummary(p3, d, wrap);
    assert p4.placed == p2.placed + fields + summary;
    assert p4.at == Cursor(1, ContentY(d, wrap));
    var p := Advance(Write(p4, [ContentHeading]), LineHeight);
    assert p == Preamble(d, wrap, formatDate);
    assert p.placed == p2.placed + fields + summary + [Placed(1, ContentY(d, wrap), [ContentHeading])];
  }

  /** The whole export: the preamble, then the content lines through the break check. */
  function Layout(d: LegalDocument, pageHeight: int, wrap: string -> seq<string>, formatDate: string -> string): Pen {
    Flowed(Preamble(d, wrap, formatDate), wrap(d.content), pageHeight)
  }

  /**
   * Each wrapped content line is placed once, in order, after the preamble;
   * on a page at least 27 high each ends above the bottom margin; and the
   * last page is 1 plus the page changes, all of which happen in the content.
   */
  lemma LayoutSpec(d: LegalDocument, pageHeight: int, wrap: string -> seq<string>, formatDate: string -> string)
    ensures var pre := Preamble(d, wrap, formatDate);
      var l := Layout(d, pageHeight, wrap, formatDate);
      var content := wrap(d.content);
      var body := l.placed[|pre.placed|..];
      && |pre.placed| <= |l.placed|
      && l.placed[..|pre.placed|] == pre.placed
      && |body| == |content|
      && (forall k :: 0 <= k < |body| ==> body[k].lines == [content[k]])
      && (pageHeight >= 27 ==> forall k :: 0 <= k < |body| ==> body[k].y + LineHeight <= pageHeight - Margin)
      && l.at.page == 1 + PageTurns(1, l.placed)
      && PageTurns(1, l.placed) == PageTurns(1, body)
  {
    var pre := Preamble(d, wrap, formatDate);
    var content := wrap(d.content);
    var f := FlowLines(pre.at, content, pageHeight);
    var l := Layout(d, pageHeight, wrap, formatDate);
    PreambleSpec(d, wrap, formatDate);
    assert l.placed == pre.placed + f.placed;
    assert l.placed[|pre.placed|..] == f.placed;
    if pageHeight >= 27 {
      FlowFits(pre.at, content, pageHeight);
    }
    FlowEnd(pre.at, content, pageHeight);
    PageTurnsSamePage(1, pre.placed);
    PageTurnsAppend(1, pre.placed, f.placed);
    assert LastPage(1, pre.placed) == 1;
  }

  /**
   * Content that needs more room than a page offers between the margins
   * always runs onto a second page.
   */
  lemma LongContentBreaks(d: LegalDocument, pageHeight: int, wrap: string -> seq<string>, formatDate: string -> string)
    requires wrap(d.content) != []
    requires LineHeight * |wrap(d.content)| > pageHeight - 2 * Margin
    ensures Layout(d, pageHeight, wrap, formatDate).at.page >= 2
  {
    var pre := Preamble(d, wrap, formatDate);
    PreambleSpec(d, wrap, formatDate);
    assert pre.at.page == 1 && pre.at.y >= 2 * Margin;
    FlowStaysOnPage(pre.at, wrap(d.content), pageHeight);
  }

  /**
   * A document with no optional fields exports as its title, its header,
   * the content heading and the content lines, and nothing else.
   */
  lemma BareDocument(d: LegalDocument, pageHeight: int, wrap: string -> seq<string>, formatDate: string -> string)
    requires d.caseNumber.None? && d.court.None? && d.date.None? && d.jurisdiction.None? && d.parties.None?
    requires d.summary.None? && d.keywords.None?
    ensures var l := Layout(d, pageHeight, wrap, formatDate);
      && |l.placed| == 3 + |wrap(d.content)|
      && l.placed[0].lines == [d.title]
      && l.placed[1].lines == [Card.CategoryLabel(Some(d.category))]
      && l.placed[2].lines == [ContentHeading]
      && forall k :: 3 <= k < |l.placed| ==> l.placed[k].lines == [wrap(d.content)[k - 3]]
  {
    PreambleSpec(d, wrap, formatDate);
    LayoutSpec(d, pageHeight, wrap, formatDate);
    SelectNone(FieldOrder, f => Shown(d, f));
    HeaderStartsWithLabel(d);
    assert |Preamble(d, wrap, formatDate).placed| == 3;
    var l := Layout(d, pageHeight, wrap, formatDate);
    var body := l.placed[3..];
    forall k | 3 <= k < |l.placed|
      ensures l.placed[k].lines == [wrap(d.content)[k - 3]]
    {
      assert l.placed[k] == body[k - 3];
    }
  }

  /** `${title.replace(/ /g, '_')}.pdf`: spaces become underscores, nothing else changes. */
  function Filename(title: string): (r: string)
    ensures |r| == |title| + 4 && r[|title|..] == ".pdf"
    ensures forall i :: 0 <= i < |title| ==> r[i] != ' ' && (title[i] != ' ' ==> r[i] == title[i])
    ensures (forall i :: 0 <= i < |title| ==> title[i] != '_') ==> Replace(r[..|title|], '_', ' ') == title
  {
    Replace(title, ' ', '_') + ".pdf"
  }

  /** Titles that differ only in spaces versus underscores share a file name. */
  lemma FilenameCollision()
    ensures Filename("Smith v Jones") == Filename("Smith_v_Jones")
  {
  }

  /** `handleExport`: nothing happens without a loaded document. */
  function Export(doc: Option<LegalDocument>, pageHeight: int, wrap: string -> seq<string>, formatDate: string -> string): (r: Option<PdfFile>)
    ensures r.Some? <==> doc.Some?
    ensures doc.Some? ==> r.value.filename == Filename(doc.value.title)
    ensures doc.Some? ==> r.value.pages == 1 + PageTurns(1, r.value.placed)
    ensures doc.Some? ==> |r.value.placed| == |Preamble(doc.value, wrap, formatDate).placed| + |wrap(doc.value.content)|
    ensures doc.Some? ==>
      && r.value.placed == Layout(doc.value, pageHeight, wrap, formatDate).placed
      && r.value.pages == Layout(doc.value, pageHeight, wrap, formatDate).at.page
    ensures doc.Some? ==>
      var pre := Preamble(doc.value, wrap, formatDate).placed;
      var content := wrap(doc.value.content);
      && r.value.placed[..|pre|] == pre
      && forall k :: 0 <= k < |content| ==> r.value.placed[|pre| + k].lines == [content[k]]
  {
    match doc
    case None => None
    case Some(d) =>
      var l := Layout(d, pageHeight, wrap, formatDate);
      LayoutSpec(d, pageHeight, wrap, formatDate);
      Some(PdfFile(l.placed, l.at.page, Filename(d.title)))
  }

  /** The page's view of a `/generate` reply. */
  datatype AiSummary = AiSummary(executiveSummary: string, keyPrinciples: seq<string>)

  /** `data.summary || ''` and `data.legal_concepts || []`. */
  function AdaptSummary(reply: GenerateReply): (r: AiSummary)
    ensures r.executiveSummary == (if reply.summary.Some? then reply.summary.value else "")
    ensures reply.legalConcepts.Some? ==> r.keyPrinciples == reply.legalConcepts.value
    ensures reply.legalConcepts.None? ==> r.keyPrinciples == []
  {
    AiSummary(OrElse(reply.summary, ""), reply.legalConcepts.GetOr([]))
  }
}

=== FILE: documents.dfy ===
/** The record shapes the frontend pages receive from the API. */
module Documents {
  import opened Wrappers

  /**
   * A document as the library, search page, card and search report see it:
   * every field but the id may be missing.  The id is modelled as a string;
   * a numeric id would be stringified by the templates that print it.
   */
  datatype Document = Document(
    id: string,
    title: Option<string>,
    category: Option<string>,
    date: Option<string>,
    caseNumber: Option<string>,
    summary: Option<string>,
    keywords: Option<seq<string>>)

  /** A document as the detail page declares it: title, category and content are required. */
  datatype LegalDocument = LegalDocument(
    id: string,
    title: string,
    category: string,
    content: string,
    caseNumber: Option<string>,
    court: Option<string>,
    date: Option<string>,
    jurisdiction: Option<string>,
    parties: Option<string>,
    summary: Option<string>,
    keywords: Option<seq<string>>)

  /** The JSON body of a `/generate` reply, each field possibly absent. */
  datatype GenerateReply = GenerateReply(
    summary: Option<string>,
    relevantDocuments: Option<seq<Document>>,
    legalConcepts: Option<seq<string>>)

  /** JavaScript truthiness of an optional string: present and non-empty. */
  predicate Truthy(field: Option<string>) {
    field.Some? && field.value != ""
  }

  /** `field || fallback`: the fallback replaces a missing or empty string. */
  function OrElse(field: Option<string>, fallback: string): string {
    if Truthy(field) then field.value else fallback
  }
}

=== FILE: library.dfy ===
/**
 * The document library page: the order-preserving filter over the fetched
 * documents and the message shown when nothing is left.
 */
module Library {
  import opened Wrappers
  import opened Text
  import opened Documents
  import opened Seqs

  /** The category filter value that admits every document. */
  const AllCategories: string := "all"

  const AdjustFiltersMessage: string := "Try adjusting your filters"
  const NothingAddedMessage: string := "Documents will appear here once added"

  /** `field?.toLowerCase().includes(term.toLowerCase())`; a missing field never matches. */
  predicate FieldMatches(field: Option<string>, term: string) {
    field.Some? && Contains(Lower(field.value), Lower(term))
  }

  /** The text criterion: an empty term, or a match in title, case number or summary. */
  predicate MatchesSearch(d: Document, term: string) {
    term == "" || FieldMatches(d.title, term) || FieldMatches(d.caseNumber, term) || FieldMatches(d.summary, term)
  }

  /** The category criterion: the wildcard, or exact (case-sensitive) equality. */
  predicate MatchesCategory(d: Document, category: string) {
    category == AllCategories || d.category == Some(category)
  }

  predicate Keep(d: Document, term: string, category: string) {
    MatchesSearch(d, term) && MatchesCategory(d, category)
  }

  /** `documents.filter(...)`: the documents meeting both criteria. */
  function Filter(docs: seq<Document>, term: string, category: string): seq<Document> {
    Select(docs, d => Keep(d, term, category))
  }

  /**
   * The filtered list is the input restricted to exactly the kept positions,
   * in their original order: nothing is added, duplicated or reordered.
   */
  lemma FilterKeepsOrder(docs: seq<Document>, term: string, category: string) returns (idx: seq<int>)
    ensures IsEmbedding(idx, Filter(docs, term, category), docs)
    ensures forall i :: 0 <= i < |docs| ==> (i in idx <==> Keep(docs[i], term, category))
  {
    idx := SelectKeepsOrder(docs, d => Keep(d, term, category));
  }

  /** An empty term with the wildcard category shows every document unchanged. */
  lemma FilterAllIsIdentity(docs: seq<Document>)
    ensures Filter(docs, "", AllCategories) == docs
  {
    SelectAll(docs, d => Keep(d, "", AllCategories));
  }

  /** The lowercased `sub` occurs somewhere in the lowercased field, which must be present. */
  ghost predicate OccursIn(sub: string, field: Option<string>) {
    field.Some? && exists i :: OccursAt(sub, Lower(field.value), i)
  }

  /**
   * The text criterion holds exactly when the term is empty or its lowercase
   * form occurs in the lowercased title, case number or summary.  The term is
   * not trimmed: a whitespace-only term must itself occur.
   */
  lemma SearchCriterion(d: Document, term: string)
    ensures MatchesSearch(d, term) <==>
      term == "" || OccursIn(Lower(term), d.title) || OccursIn(Lower(term), d.caseNumber)
      || OccursIn(Lower(term), d.summary)
  {
    if d.title.Some? { ContainsIff(Lower(d.title.value), Lower(term)); }
    if d.caseNumber.Some? { ContainsIff(Lower(d.caseNumber.value), Lower(term)); }
    if d.summary.Some? { ContainsIff(Lower(d.summary.value), Lower(term)); }
  }

  /** A longer term can only keep fewer documents: everything kept for `t2` is kept for its substring `t`. */
  lemma KeepMonotonic(d: Document, t: string, t2: string, category: string)
    requires Contains(t2, t)
    requires Keep(d, t2, category)
    ensures Keep(d, t, category)
  {
    if t != "" {
      ContainsLower(t2, t);
      if FieldMatches(d.title, t2) {
        ContainsTransitive(Lower(d.title.value), Lower(t2), Lower(t));
      } else if FieldMatches(d.caseNumber, t2) {
        ContainsTransitive(Lower(d.caseNumber.value), Lower(t2), Lower(t));
      } else {
        assert t2 != "" by { ContainsIff(t2, t); }
        ContainsTransitive(Lower(d.summary.value), Lower(t2), Lower(t));
      }
    }
  }

  /** Monotonicity of the filter in the search term, as membership and as a count. */
  lemma FilterMonotonic(docs: seq<Document>, t: string, t2: string, category: string)
    requires Contains(t2, t)
    ensures forall d :: d in Filter(docs, t2, category) ==> d in Filter(docs, t, category)
    ensures |Filter(docs, t2, category)| <= |Filter(docs, t, category)|
  {
    var idx2 := FilterKeepsOrder(docs, t2, category);
    var idx := FilterKeepsOrder(docs, t, category);
    forall d | d in Filter(docs, t2, category)
      ensures d in Filter(docs, t, category)
    {
      var k :| 0 <= k < |idx2| && Filter(docs, t2, category)[k] == d;
      var i := idx2[k];
      KeepMonotonic(docs[i], t, t2, category);
      var k' :| 0 <= k' < |idx| && idx[k'] == i;
      assert Filter(docs, t, category)[k'] == d;
    }
    forall i | 0 <= i < |docs| && Keep(docs[i], t2, category)
      ensures Keep(docs[i], t, category)
    {
      KeepMonotonic(docs[i], t, t2, category);
    }
    SelectStrongerIsShorter(docs, d => Keep(d, t2, category), d => Keep(d, t, category));
  }

  /** The hint shown under "No documents found". */
  function EmptyStateMessage(term: string, category: string): string {
    if term != "" || category != AllCategories then AdjustFiltersMessage else NothingAddedMessage
  }

  /**
   * When the filtered list is empty, the "adjust your filters" hint appears
   * exactly when some filter is active; otherwise nothing was loaded at all.
   */
  lemma EmptyStateExplained(docs: seq<Document>, term: string, category: string)
    requires Filter(docs, term, category) == []
    ensures EmptyStateMessage(term, category) == AdjustFiltersMessage <==> term != "" || category != AllCategories
    ensures EmptyStateMessage(term, category) == NothingAddedMessage ==> docs == []
  {
    if term == "" && category == AllCategories {
      FilterAllIsIdentity(docs);
    }
  }

  /** Text matching ignores ASCII case: "SMITH" finds "Smith v. Jones". */
  lemma UppercaseTermFindsTitle()
    ensures Filter([Document("1", Some("Smith v. Jones"), None, None, None, None, None)], "SMITH", AllCategories)
         == [Document("1", Some("Smith v. Jones"), None, None, None, None, None)]
  {
    var d := Document("1", Some("Smith v. Jones"), None, None, None, None, None);
    assert Lower("SMITH") == "smith";
    assert Lower("Smith v. Jones") == "smith v. jones";
    assert "smith" <= "smith v. jones";
    assert Keep(d, "SMITH", AllCategories);
    assert [d][..0] == [];
  }

  /** Category matching is exact: "Contract" is not the category "contract". */
  lemma CategoryIsCaseSensitive()
    ensures Filter([Document("1", Some("Lease"), Some("Contract"), None, None, None, None)], "", "contract") == []
  {
    var d := Document("1", Some("Lease"), Some("Contract"), None, None, None, None);
    assert !MatchesCategory(d, "contract");
    assert [d][..0] == [];
  }

  /** A whitespace-only term is used as is: a single space must occur in some field. */
  lemma WhitespaceTermIsNotTrimmed()
    ensures Filter([Document("1", Some("Smith"), None, None, None, None, None)], " ", AllCategories) == []
    ensures Filter([Document("2", Some("Smith v. Jones"), None, None, None, None, None)], " ", AllCategories)
         == [Document("2", Some("Smith v. Jones"), None, None, None, None, None)]
  {
    var d1 := Document("1", Some("Smith"), None, None, None, None, None);
    var d2 := Document("2", Some("Smith v. Jones"), None, None, None, None, None);
    assert Lower(" ") == " ";
    assert Lower("Smith") == "smith";
    ContainsIff("smith", " ");
    NotContainsAbsentChar("smith", ' ');
    assert !Keep(d1, " ", AllCategories);
    assert [d1][..0] == [];
    assert Lower("Smith v. Jones") == "smith v. jones";
    assert "smith v. jones"[5..6] == " ";
    assert OccursAt(" ", "smith v. jones", 5);
    ContainsIff("smith v. jones", " ");
    assert Keep(d2, " ", AllCategories);
    assert [d2][..0] == [];
  }
}

=== FILE: pdf.dfy ===
/**
 * The cursor discipline shared by both PDF exports: text is placed at the
 * current `(page, y)`, the cursor advances by fixed amounts, and a new page
 * (with `y` back at the top margin) starts when the next item would cross the
 * bottom margin.  Fonts and the real page geometry are not modelled; the page
 * height is a parameter.
 */
module Pdf {

  const Margin: int := 10
  const LineHeight: int := 7

  /** The current page (numbered from 1) and vertical position on it. */
  datatype Cursor = Cursor(page: nat, y: int)

  /** One `doc.text(...)` call: the lines it draws, starting at `y` on `page`. */
  datatype Placed = Placed(page: nat, y: int, lines: seq<string>)

  /** A document being written: what has been placed so far, and the cursor. */
  datatype Pen = Pen(placed: seq<Placed>, at: Cursor)

  /** The empty first page, with the cursor at the top margin. */
  const Fresh: Pen := Pen([], Cursor(1, Margin))

  /** `doc.text(lines, margin, yPos)`. */
  function Write(p: Pen, lines: seq<string>): Pen {
    p.(placed := p.placed + [Placed(p.at.page, p.at.y, lines)])
  }

  /** `yPos += dy`. */
  function Advance(p: Pen, dy: int): Pen {
    p.(at := Cursor(p.at.page, p.at.y + dy))
  }

  /** `doc.addPage(); yPos = margin`. */
  function NewPage(p: Pen): Pen {
    p.(at := Cursor(p.at.page + 1, Margin))
  }

  /** The break test `yPos + need > pageHeight - margin`. */
  predicate Overflows(y: int, need: int, pageHeight: int) {
    y + need > pageHeight - Margin
  }

  /** Starts a new page when `need` more units would not fit above the bottom margin. */
  function EnsureRoom(p: Pen, need: int, pageHeight: int): Pen {
    if Overflows(p.at.y, need, pageHeight) then NewPage(p) else p
  }

  /** The number of page changes along `placed`, starting from `page`. */
  function PageTurns(page: nat, placed: seq<Placed>): nat
    decreases |placed|
  {
    if placed == [] then 0
    else (if placed[0].page != page then 1 else 0) + PageTurns(placed[0].page, placed[1..])
  }

  /** The page of the last placed item, or `page` when nothing is placed. */
  function LastPage(page: nat, placed: seq<Placed>): nat {
    if placed == [] then page else placed[|placed| - 1].page
  }

  lemma {:induction false} PageTurnsAppend(page: nat, a: seq<Placed>, b: seq<Placed>)
    ensures PageTurns(page, a + b) == PageTurns(page, a) + PageTurns(LastPage(page, a), b)
    decreases |a|
  {
    if a == [] {
      assert a + b == b;
    } else {
      assert (a + b)[1..] == a[1..] + b;
      PageTurnsAppend(a[0].page, a[1..], b);
      assert LastPage(a[0].page, a[1..]) == LastPage(page, a);
    }
  }

  /** Items that all sit on `page` cause no page change. */
  lemma {:induction false} PageTurnsSamePage(page: nat, placed: seq<Placed>)
    requires forall k :: 0 <= k < |placed| ==> placed[k].page == page
    ensures PageTurns(page, placed) == 0
    decreases |placed|
  {
    if placed != [] {
      PageTurnsSamePage(page, placed[1..]);
    }
  }

  /** Where the next line goes: the cursor itself, or the top of a new page. */
  function Room(c: Cursor, need: int, pageHeight: int): Cursor {
    if Overflows(c.y, need, pageHeight) then Cursor(c.page + 1, Margin) else c
  }

  /** The lines placed by one run of the line loop, and the cursor after it. */
  datatype Flow = Flow(placed: seq<Placed>, end: Cursor)

  /**
   * The guarded line loop: before each line, break the page if a line would
   * not fit; place the line; advance by one line height.
   */
  function FlowLines(c: Cursor, texts: seq<string>, pageHeight: int): (f: Flow)
    ensures |f.placed| == |texts|
    ensures forall k :: 0 <= k < |texts| ==> f.placed[k].lines == [texts[k]]
    decreases |texts|
  {
    if texts == [] then Flow([], c)
    else
      var at := Room(c, LineHeight, pageHeight);
      var rest := FlowLines(Cursor(at.page, at.y + LineHeight), texts[1..], pageHeight);
      Flow([Placed(at.page, at.y, [texts[0]])] + rest.placed, rest.end)
  }

  /** The line loop run on a pen: its lines are appended and the cursor moves on. */
  function Flowed(p: Pen, texts: seq<string>, pageHeight: int): Pen {
    var f := FlowLines(p.at, texts, pageHeight);
    Pen(p.placed + f.placed, f.end)
  }

  /** The cursor just below a placed line. */
  function Below(pl: Placed): Cursor {
    Cursor(pl.page, pl.y + LineHeight)
  }

  /** The cursor the loop holds before placing line `k`. */
  function Before(c: Cursor, placed: seq<Placed>, k: nat): Cursor
    requires k <= |placed|
  {
    if k == 0 then c else Below(placed[k - 1])
  }

  /**
   * A page is broken before a line exactly when the line would otherwise
   * cross the bottom margin; otherwise the line goes where the cursor is.
   */
  lemma {:induction false} FlowBreaksOnlyWhenNeeded(c: Cursor, texts: seq<string>, pageHeight: int, k: nat)
    requires k < |texts|
    ensures var f := FlowLines(c, texts, pageHeight);
      var b := Before(c, f.placed, k);
      if Overflows(b.y, LineHeight, pageHeight)
      then f.placed[k].page == b.page + 1 && f.placed[k].y == Margin
      else f.placed[k].page == b.page && f.placed[k].y == b.y
    decreases k
  {
    if k > 0 {
      var at := Room(c, LineHeight, pageHeight);
      var c1 := Cursor(at.page, at.y + LineHeight);
      var f := FlowLines(c, texts, pageHeight);
      var rest := FlowLines(c1, texts[1..], pageHeight);
      FlowBreaksOnlyWhenNeeded(c1, texts[1..], pageHeight, k - 1);
      assert f.placed[k] == rest.placed[k - 1];
      assert Before(c, f.placed, k) == Before(c1, rest.placed, k - 1);
    }
  }

  /** On a page at least 27 high, every line ends above the bottom margin. */
  lemma {:induction false} FlowFits(c: Cursor, texts: seq<string>, pageHeight: int)
    requires pageHeight >= 27
    ensures var f := FlowLines(c, texts, pageHeight);
      forall k :: 0 <= k < |texts| ==> f.placed[k].y + LineHeight <= pageHeight - Margin
    decreases |texts|
  {
    if texts != [] {
      var at := Room(c, LineHeight, pageHeight);
      var c1 := Cursor(at.page, at.y + LineHeight);
      FlowFits(c1, texts[1..], pageHeight);
      assert var g := FlowLines(c1, texts[1..], pageHeight);
        forall k :: 0 <= k < |texts[1..]| ==> g.placed[k].y + LineHeight <= pageHeight - Margin;
      var f := FlowLines(c, texts, pageHeight);
      var rest := FlowLines(c1, texts[1..], pageHeight);
      assert f == Flow([Placed(at.page, at.y, [texts[0]])] + rest.placed, rest.end);
      forall k | 0 <= k < |texts|
        ensures f.placed[k].y + LineHeight <= pageHeight - Margin
      {
        if k == 0 {
          assert f.placed[0].y == at.y;
        } else {
          assert f.placed[k] == rest.placed[k - 1];
          assert k - 1 < |texts[1..]|;
        }
      }
    }
  }

  /**
   * The cursor after the loop sits just below the last line (or is unmoved),
   * and its page is the starting page plus the page changes along the lines.
   */
  lemma {:induction false} FlowEnd(c: Cursor, texts: seq<string>, pageHeight: int)
    ensures var f := FlowLines(c, texts, pageHeight);
      && f.end == (if texts == [] then c else Below(f.placed[|texts| - 1]))
      && f.end.page == c.page + PageTurns(c.page, f.placed)
    decreases |texts|
  {
    if texts != [] {
      var at := Room(c, LineHeight, pageHeight);
      var c1 := Cursor(at.page, at.y + LineHeight);
      FlowEnd(c1, texts[1..], pageHeight);
      var f := FlowLines(c, texts, pageHeight);
      assert f.placed[1..] == FlowLines(c1, texts[1..], pageHeight).placed;
    }
  }

  /**
   * The loop never moves back a page, and when it stays on its page the
   * lines are stacked 7 apart from the start and the last ends above the
   * bottom margin.
   */
  lemma {:induction false} FlowStaysOnPage(c: Cursor, texts: seq<string>, pageHeight: int)
    ensures var f := FlowLines(c, texts, pageHeight);
      && f.end.page >= c.page
      && (f.end.page == c.page ==>
            f.end.y == c.y + LineHeight * |texts| && (texts != [] ==> f.end.y <= pageHeight - Margin))
    decreases |texts|
  {
    if texts != [] {
      var at := Room(c, LineHeight, pageHeight);
      var c1 := Cursor(at.page, at.y + LineHeight);
      FlowStaysOnPage(c1, texts[1..], pageHeight);
    }
  }

  /**
   * The pen's page is the page of the last text placed and is one more than
   * the number of page changes among the placed items: every page up to the
   * current one holds text, so the page count is 1 + the page breaks.
   */
  predicate Counted(p: Pen) {
    p.at.page == LastPage(1, p.placed) && p.at.page == 1 + PageTurns(1, p.placed)
  }

  lemma FreshCounted()
    ensures Counted(Fresh)
  {
  }

  /** Text written where the pen is, or at the top of a page just started, keeps the count. */
  lemma {:induction false} WriteCounts(p: Pen, broke: bool, lines: seq<string>)
    ensures Counted(p) ==> Counted(Write(if broke then NewPage(p) else p, lines))
  {
    var at := if broke then NewPage(p) else p;
    var x := Placed(at.at.page, at.at.y, lines);
    PageTurnsAppend(1, p.placed, [x]);
    assert [x][1..] == [];
  }

  lemma EnsureRoomWriteCounts(p: Pen, need: int, pageHeight: int, lines: seq<string>)
    ensures Counted(p) ==> Counted(Write(EnsureRoom(p, need, pageHeight), lines))
  {
    WriteCounts(p, Overflows(p.at.y, need, pageHeight), lines);
  }

  /** The guarded line loop keeps the count. */
  lemma FlowedCounts(p: Pen, texts: seq<string>, pageHeight: int)
    ensures Counted(p) ==> Counted(Flowed(p, texts, pageHeight))
  {
    var f := FlowLines(p.at, texts, pageHeight);
    FlowEnd(p.at, texts, pageHeight);
    PageTurnsAppend(1, p.placed, f.placed);
  }

  /** Between two counted pens, one extending the other, the page advances by the page changes in between. */
  lemma CountedExtension(p: Pen, q: Pen)
    requires Counted(p) && Counted(q)
    requires |p.placed| <= |q.placed| && q.placed[..|p.placed|] == p.placed
    ensures q.at.page == p.at.page + PageTurns(p.at.page, q.placed[|p.placed|..])
  {
    assert q.placed == p.placed + q.placed[|p.placed|..];
    PageTurnsAppend(1, p.placed, q.placed[|p.placed|..]);
  }

  /** The saved file: what was placed, the number of pages, and the file name. */
  datatype PdfFile = PdfFile(placed: seq<Placed>, pages: nat, filename: string)
}

=== FILE: preprocess.dfy ===
/**
 * The backend's text normaliser: lowercase, drop everything but ASCII letters,
 * digits and whitespace, collapse whitespace runs to one space, and strip.
 */
module Preprocess {
  import opened Text
  import opened Seqs

  /** The characters `[a-z0-9]` that survive the special-character removal besides whitespace. */
  predicate IsWordChar(c: char) {
    IsLower(c) || IsDigit(c)
  }

  /** The characters `[a-z0-9\s]` the special-character removal keeps. */
  predicate Kept(c: char) {
    IsWordChar(c) || IsPySpace(c)
  }

  /** Anything but Python whitespace. */
  predicate NotSpace(c: char) {
    !IsPySpace(c)
  }

  /** Only word characters and whitespace: what the special-character removal leaves. */
  predicate OnlyKept(s: string)
    decreases |s|
  {
    s == [] || (Kept(s[0]) && OnlyKept(s[1..]))
  }

  /** Only word characters and plain spaces. */
  predicate Clean(s: string) {
    forall i :: 0 <= i < |s| ==> IsWordChar(s[i]) || s[i] == ' '
  }

  /** No two adjacent spaces. */
  predicate SingleSpaced(s: string) {
    forall i :: 0 <= i < |s| - 1 ==> !(s[i] == ' ' && s[i + 1] == ' ')
  }

  /** No space at either end. */
  predicate Trimmed(s: string) {
    s == [] || (s[0] != ' ' && s[|s| - 1] != ' ')
  }

  /** `re.sub(r'[^a-z0-9\s]', '', s)`. */
  function RemoveSpecial(s: string): (r: string)
    ensures forall i :: 0 <= i < |r| ==> IsWordChar(r[i]) || IsPySpace(r[i])
    ensures r == Select(s, Kept)
    ensures OnlyKept(r)
    decreases |s|
  {
    if s == [] then []
    else
      SelectCons(s[0], s[1..], Kept);
      assert s == [s[0]] + s[1..];
      var rest := RemoveSpecial(s[1..]);
      var r := (if Kept(s[0]) then [s[0]] else []) + rest;
      assert OnlyKept(r) by {
        if Kept(s[0]) {
          assert r[1..] == rest;
        } else {
          assert r == rest;
        }
      }
      r
  }

  /** `OnlyKept` is the position-wise reading of "every character is kept". */
  lemma {:induction false} OnlyKeptMeans(s: string)
    ensures OnlyKept(s) <==> forall i :: 0 <= i < |s| ==> Kept(s[i])
    decreases |s|
  {
    if s != [] {
      OnlyKeptMeans(s[1..]);
      assert forall i :: 1 <= i < |s| ==> s[1..][i - 1] == s[i];
    }
  }

  /** Dropping leading characters keeps text free of special characters. */
  lemma {:induction false} OnlyKeptDrop(s: string, p: char -> bool)
    requires OnlyKept(s)
    ensures OnlyKept(DropWhile(s, p))
    decreases |s|
  {
    if s != [] && p(s[0]) {
      OnlyKeptDrop(s[1..], p);
    }
  }

  /** The recursion behind `CollapseSpaces`: one whitespace run or one character at a time. */
  function Collapse(s: string): string
    decreases |s|
  {
    if s == [] then []
    else if IsPySpace(s[0]) then " " + Collapse(DropWhile(s, IsPySpace))
    else [s[0]] + Collapse(s[1..])
  }

  /** Collapsing is empty only for empty text, and keeps the first word character or opens with a space. */
  lemma CollapseStart(s: string)
    ensures s == [] <==> Collapse(s) == []
    ensures |s| > 0 && !IsPySpace(s[0]) ==> |Collapse(s)| > 0 && Collapse(s)[0] == s[0]
    ensures |s| > 0 && IsPySpace(s[0]) ==> |Collapse(s)| > 0 && Collapse(s)[0] == ' '
  {
  }

  /** The only whitespace collapsing leaves is the plain space. */
  lemma {:induction false} CollapseBlanks(s: string)
    ensures forall i :: 0 <= i < |Collapse(s)| && IsPySpace(Collapse(s)[i]) ==> Collapse(s)[i] == ' '
    decreases |s|
  {
    if s != [] {
      if IsPySpace(s[0]) {
        CollapseBlanks(DropWhile(s, IsPySpace));
      } else {
        CollapseBlanks(s[1..]);
      }
    }
  }

  /** Collapsing never leaves two spaces side by side. */
  lemma {:induction false} CollapseSingleSpaced(s: string)
    ensures SingleSpaced(Collapse(s))
    decreases |s|
  {
    if s != [] {
      if IsPySpace(s[0]) {
        var rest := DropWhile(s, IsPySpace);
        CollapseSingleSpaced(rest);
        CollapseStart(rest);
      } else {
        CollapseSingleSpaced(s[1..]);
      }
    }
  }

  /** Text of word characters and whitespace collapses to word characters and spaces. */
  lemma {:induction false} CollapseClean(s: string)
    requires OnlyKept(s)
    ensures Clean(Collapse(s))
    decreases |s|
  {
    if s != [] {
      if IsPySpace(s[0]) {
        OnlyKeptDrop(s, IsPySpace);
        CollapseClean(DropWhile(s, IsPySpace));
      } else {
        CollapseClean(s[1..]);
      }
    }
  }

  /** What collapsing guarantees. */
  lemma CollapseFacts(s: string)
    ensures var r := Collapse(s);
      && (OnlyKept(s) ==> Clean(r))
      && SingleSpaced(r)
      && (|s| > 0 && !IsPySpace(s[0]) ==> |r| > 0 && r[0] == s[0])
      && (|s| > 0 && IsPySpace(s[0]) ==> |r| > 0 && r[0] == ' ')
      && (forall i :: 0 <= i < |r| && IsPySpace(r[i]) ==> r[i] == ' ')
      && (s == [] <==> r == [])
  {
    CollapseStart(s);
    CollapseBlanks(s);
    CollapseSingleSpaced(s);
    if OnlyKept(s) {
      CollapseClean(s);
    }
  }

  /** `re.sub(r'\s+', ' ', s)`: every maximal whitespace run becomes one space. */
  function CollapseSpaces(s: string): (r: string)
    ensures OnlyKept(s) ==> Clean(r)
    ensures SingleSpaced(r)
    ensures |s| > 0 && !IsPySpace(s[0]) ==> |r| > 0 && r[0] == s[0]
    ensures |s| > 0 && IsPySpace(s[0]) ==> |r| > 0 && r[0] == ' '
    ensures forall i :: 0 <= i < |r| && IsPySpace(r[i]) ==> r[i] == ' '
    ensures s == [] <==> r == []
  {
    CollapseFacts(s);
    Collapse(s)
  }

  /** A whitespace run followed by a word, or by nothing, becomes one space. */
  lemma CollapseRun(w: string, b: string)
    requires w != [] && forall i :: 0 <= i < |w| ==> IsPySpace(w[i])
    requires b == [] || !IsPySpace(b[0])
    ensures CollapseSpaces(w + b) == " " + CollapseSpaces(b)
  {
    DropWhileAppend(w, b, IsPySpace);
    assert DropWhile(w, IsPySpace) == [];
    assert DropWhile(b, IsPySpace) == b;
    assert (w + b)[0] == w[0];
  }

  /** One step of collapsing at a non-whitespace character. */
  lemma CollapseWordStep(s: string)
    requires s != [] && !IsPySpace(s[0])
    ensures CollapseSpaces(s) == [s[0]] + CollapseSpaces(s[1..])
  {
  }

  /** One step of collapsing at a whitespace run. */
  lemma CollapseRunStep(s: string)
    requires s != [] && IsPySpace(s[0])
    ensures CollapseSpaces(s) == " " + CollapseSpaces(DropWhile(s, IsPySpace))
  {
  }

  /** Collapsing works piece by piece when no whitespace run straddles the cut. */
  lemma {:induction false} CollapseAppend(a: string, b: string)
    requires a == [] || b == [] || !IsPySpace(a[|a| - 1]) || !IsPySpace(b[0])
    ensures CollapseSpaces(a + b) == CollapseSpaces(a) + CollapseSpaces(b)
    decreases |a|, 2
  {
    if a == [] {
      assert a + b == b;
    } else if !IsPySpace(a[0]) {
      CollapseAppendWord(a, b);
    } else {
      CollapseAppendRun(a, b);
    }
  }

  lemma {:induction false} CollapseAppendWord(a: string, b: string)
    requires a != [] && !IsPySpace(a[0])
    requires b == [] || !IsPySpace(a[|a| - 1]) || !IsPySpace(b[0])
    ensures CollapseSpaces(a + b) == CollapseSpaces(a) + CollapseSpaces(b)
    decreases |a|, 0
  {
    var t := a[1..];
    assert (a + b)[0] == a[0] && (a + b)[1..] == t + b;
    calc {
      CollapseSpaces(a + b);
      { CollapseWordStep(a + b); }
      [a[0]] + CollapseSpaces(t + b);
      { CollapseAppend(t, b); }
      [a[0]] + (CollapseSpaces(t) + CollapseSpaces(b));
      { CollapseWordStep(a); }
      CollapseSpaces(a) + CollapseSpaces(b);
    }
  }

  lemma {:induction false} CollapseAppendRun(a: string, b: string)
    requires a != [] && IsPySpace(a[0])
    requires b == [] || !IsPySpace(a[|a| - 1]) || !IsPySpace(b[0])
    ensures CollapseSpaces(a + b) == CollapseSpaces(a) + CollapseSpaces(b)
    decreases |a|, 1
  {
    var t := DropWhile(a, IsPySpace);
    var d := DropWhile(a + b, IsPySpace);
    assert CollapseSpaces(a + b) == " " + CollapseSpaces(d) by {
      assert (a + b)[0] == a[0];
      CollapseRunStep(a + b);
    }
    assert CollapseSpaces(a) == " " + CollapseSpaces(t) by {
      CollapseRunStep(a);
    }
    CollapseAppendRest(a, b);
    PrefixAppend(CollapseSpaces(a + b), CollapseSpaces(d), CollapseSpaces(a), CollapseSpaces(t), CollapseSpaces(b));
  }

  /** `x == " " + y`, `z == " " + w` and `y == w + v` give `x == z + v`. */
  lemma PrefixAppend(x: string, y: string, z: string, w: string, v: string)
    requires x == " " + y && z == " " + w && y == w + v
    ensures x == z + v
  {
  }

  /** The rest of `a + b` once the leading run of `a` is dropped. */
  lemma {:induction false} CollapseAppendRest(a: string, b: string)
    requires a != [] && IsPySpace(a[0])
    requires b == [] || !IsPySpace(a[|a| - 1]) || !IsPySpace(b[0])
    ensures CollapseSpaces(DropWhile(a + b, IsPySpace)) == CollapseSpaces(DropWhile(a, IsPySpace)) + CollapseSpaces(b)
    decreases |a|, 0
  {
    var t := DropWhile(a, IsPySpace);
    if t != [] {
      assert DropWhile(a + b, IsPySpace) == t + b by {
        DropWhileAppend(a, b, IsPySpace);
      }
      assert t[|t| - 1] == a[|a| - 1];
      CollapseAppend(t, b);
    } else {
      assert DropWhile(a + b, IsPySpace) == b by {
        DropWhileAppend(a, b, IsPySpace);
        assert IsPySpace(a[|a| - 1]);
        assert DropWhile(b, IsPySpace) == b;
      }
      assert [] + CollapseSpaces(b) == CollapseSpaces(b);
    }
  }

  /**
   * A whitespace run between two words becomes exactly one space, and the
   * text on either side collapses on its own: word boundaries survive.
   */
  lemma CollapseRunBetween(a: string, w: string, b: string)
    requires a == [] || !IsPySpace(a[|a| - 1])
    requires w != [] && forall i :: 0 <= i < |w| ==> IsPySpace(w[i])
    requires b == [] || !IsPySpace(b[0])
    ensures CollapseSpaces(a + w + b) == CollapseSpaces(a) + " " + CollapseSpaces(b)
  {
    var wb := w + b;
    assert CollapseSpaces(wb) == " " + CollapseSpaces(b) by {
      CollapseRun(w, b);
    }
    assert CollapseSpaces(a + w + b) == CollapseSpaces(a) + CollapseSpaces(wb) by {
      assert a + w + b == a + wb;
      CollapseAppend(a, wb);
    }
    SpaceBetween(CollapseSpaces(a + w + b), CollapseSpaces(a), CollapseSpaces(wb), CollapseSpaces(b));
  }

  /** `x == z + y` and `y == " " + v` give `x == z + " " + v`. */
  lemma SpaceBetween(x: string, z: string, y: string, v: string)
    requires x == z + y && y == " " + v
    ensures x == z + " " + v
  {
  }

  /** Two words with a mixed run of blanks between them keep one space. */
  lemma CollapseExample()
    ensures CollapseSpaces("a \t b") == "a b"
  {
    CollapseWord('a');
    CollapseWord('b');
    CollapseRunBetween("a", " \t ", "b");
    assert "a" + " \t " + "b" == "a \t b";
  }

  /** A single non-whitespace character is left alone. */
  lemma CollapseWord(c: char)
    requires !IsPySpace(c)
    ensures CollapseSpaces([c]) == [c]
  {
    CollapseWordStep([c]);
    assert [c][1..] == [];
  }

  /** `preprocess_text` as a whole. */
  function PreprocessText(text: string): (r: string)
    ensures Clean(r) && SingleSpaced(r) && Trimmed(r)
  {
    var collapsed := CollapseSpaces(RemoveSpecial(Lower(text)));
    var r := Trim(collapsed, IsPySpace);
    TrimmedSlice(collapsed);
    r
  }

  /** Dropping leading whitespace keeps every other character. */
  lemma {:induction false} DropSpacesKeepsWords(s: string)
    ensures Select(DropWhile(s, IsPySpace), NotSpace) == Select(s, NotSpace)
    decreases |s|
  {
    if s != [] && IsPySpace(s[0]) {
      DropSpacesKeepsWords(s[1..]);
      SelectCons(s[0], s[1..], NotSpace);
      assert s == [s[0]] + s[1..];
    }
  }

  /** Dropping trailing whitespace keeps every other character. */
  lemma {:induction false} DropEndSpacesKeepsWords(s: string)
    ensures Select(DropWhileEnd(s, IsPySpace), NotSpace) == Select(s, NotSpace)
    decreases |s|
  {
    if s != [] && IsPySpace(s[|s| - 1]) {
      var n := |s| - 1;
      DropEndSpacesKeepsWords(s[..n]);
      SelectSnoc(s[..n], s[n], NotSpace);
      assert s == s[..n] + [s[n]];
    }
  }

  /**
   * Collapsing whitespace keeps every non-whitespace character, in order:
   * only whitespace runs are rewritten.
   */
  lemma {:induction false} CollapseKeepsWords(s: string)
    ensures Select(CollapseSpaces(s), NotSpace) == Select(s, NotSpace)
    decreases |s|
  {
    if s != [] {
      if IsPySpace(s[0]) {
        var rest := DropWhile(s, IsPySpace);
        CollapseKeepsWords(rest);
        DropSpacesKeepsWords(s);
        SelectCons(' ', CollapseSpaces(rest), NotSpace);
      } else {
        CollapseKeepsWords(s[1..]);
        SelectCons(s[0], CollapseSpaces(s[1..]), NotSpace);
        SelectCons(s[0], s[1..], NotSpace);
        assert s == [s[0]] + s[1..];
      }
    }
  }

  /**
   * The normalised text holds exactly the lowercased input's letters and
   * digits, in order, once its spaces are set aside: nothing but
   * punctuation and whitespace is lost.
   */
  lemma PreprocessKeepsWords(text: string)
    ensures Select(PreprocessText(text), NotSpace) == Select(Lower(text), IsWordChar)
  {
    var lowered := Lower(text);
    var kept := RemoveSpecial(lowered);
    var collapsed := CollapseSpaces(kept);
    var front := DropWhile(collapsed, IsPySpace);
    assert PreprocessText(text) == DropWhileEnd(front, IsPySpace);
    calc {
      Select(PreprocessText(text), NotSpace);
      == { DropEndSpacesKeepsWords(front); }
      Select(front, NotSpace);
      == { DropSpacesKeepsWords(collapsed); }
      Select(collapsed, NotSpace);
      == { CollapseKeepsWords(kept); }
      Select(Select(lowered, Kept), NotSpace);
      == { WordCharIsKeptNonSpace(); SelectSelect(lowered, Kept, NotSpace, IsWordChar); }
      Select(lowered, IsWordChar);
    }
  }

  lemma WordCharIsKeptNonSpace()
    ensures forall c :: IsWordChar(c) == (Kept(c) && NotSpace(c))
  {
  }

  /** A contiguous slice of clean, single-spaced text is clean and single-spaced. */
  lemma SliceKeepsShape(s: string, a: nat, b: nat)
    requires a <= b <= |s|
    requires Clean(s) && SingleSpaced(s)
    ensures Clean(s[a..b]) && SingleSpaced(s[a..b])
  {
    assert forall i :: 0 <= i < b - a ==> s[a..b][i] == s[a + i];
  }

  /** Stripping keeps a contiguous slice, so cleanliness and single spacing carry over. */
  lemma TrimmedSlice(s: string)
    requires Clean(s) && SingleSpaced(s)
    ensures Clean(Trim(s, IsPySpace)) && SingleSpaced(Trim(s, IsPySpace)) && Trimmed(Trim(s, IsPySpace))
  {
    var t := Trim(s, IsPySpace);
    var a := TrimIsSlice(s, IsPySpace);
    SliceKeepsShape(s, a, a + |t|);
  }

  /** Text that is already normalised passes through every step unchanged. */
  lemma {:induction false} RemoveSpecialFixes(s: string)
    requires Clean(s)
    ensures RemoveSpecial(s) == s
    decreases |s|
  {
    if s != [] {
      RemoveSpecialFixes(s[1..]);
    }
  }

  lemma {:induction false} CollapseSpacesFixes(s: string)
    requires Clean(s) && SingleSpaced(s)
    ensures CollapseSpaces(s) == s
    decreases |s|
  {
    if s != [] {
      var t := s[1..];
      assert Clean(t) && SingleSpaced(t) by {
        SliceKeepsShape(s, 1, |s|);
      }
      CollapseSpacesFixes(t);
      if s[0] == ' ' {
        assert DropWhile(s, IsPySpace) == t by {
          assert t == [] || IsWordChar(t[0]) by {
            assert t == [] || t[0] == s[1];
          }
          assert DropWhile(t, IsPySpace) == t;
        }
        assert CollapseSpaces(s) == " " + CollapseSpaces(t) by {
          CollapseRunStep(s);
        }
      } else {
        assert CollapseSpaces(s) == [s[0]] + CollapseSpaces(t) by {
          assert !IsPySpace(s[0]);
          CollapseWordStep(s);
        }
      }
      assert s == [s[0]] + t;
    }
  }

  lemma LowerFixes(s: string)
    requires Clean(s)
    ensures Lower(s) == s
  {
  }

  lemma TrimFixes(s: string)
    requires Clean(s) && Trimmed(s)
    ensures Trim(s, IsPySpace) == s
  {
    if s != [] {
      assert IsWordChar(s[0]) && IsWordChar(s[|s| - 1]);
    }
    TrimKeeps(s, IsPySpace);
  }

  /** Normalised text is a fixed point of `PreprocessText`. */
  lemma PreprocessFixes(s: string)
    requires Clean(s) && SingleSpaced(s) && Trimmed(s)
    ensures PreprocessText(s) == s
  {
    LowerFixes(s);
    RemoveSpecialFixes(s);
    CollapseSpacesFixes(s);
    TrimFixes(s);
  }

  /** Normalising twice is normalising once. */
  lemma PreprocessIdempotent(text: string)
    ensures PreprocessText(PreprocessText(text)) == PreprocessText(text)
  {
    PreprocessFixes(PreprocessText(text));
  }

  /**
   * Lowercasing happens before the filter, so upper-case ASCII letters are
   * kept in lower case: a word of letters and digits comes out as its lowercase.
   */
  lemma PreprocessWord(word: string)
    requires forall i :: 0 <= i < |word| ==> IsLetter(word[i]) || IsDigit(word[i])
    ensures PreprocessText(word) == Lower(word)
  {
    var w := Lower(word);
    assert Clean(w) && SingleSpaced(w) && Trimmed(w);
    RemoveSpecialFixes(w);
    CollapseSpacesFixes(w);
    TrimFixes(w);
  }
}

=== FILE: report_export.dfy ===
/**
 * The search results' PDF report: title, query, wrapped summary, a bulleted
 * concepts section and, on a fresh page, one three-line block per document.
 * The layout is written as the component writes it, a sequence of pen steps;
 * the contracts and lemmas give its shape.  Text wrapping is a parameter.
 */
module ReportExport {
  import opened Wrappers
  import opened Documents
  import opened Pdf

  const ReportTitle: string := "AI Research Summary"
  const ConceptsHeading: string := "Key Legal Concepts:"
  const DocumentsHeading: string := "Relevant Documents"
  const ReportFilename: string := "ai_research_summary.pdf"
  /** The bullet prefix exactly as the source spells it: the three UTF-8 bytes of U+2022 (bullet) each read as a Windows-1252 character, then a space. */
  const Bullet: string := "\U{E2}\U{20AC}\U{A2} "
  const TitleGap: int := 10
  const SectionGap: int := 5
  /** The room a document block asks for before it is placed. */
  const BlockRoom: int := 20
  /** How far one document block moves the cursor: three lines and a gap. */
  const BlockHeight: int := 3 * LineHeight + SectionGap

  /** What the search page hands to the report. */
  datatype Results = Results(
    query: Option<string>,
    summary: Option<string>,
    legalConcepts: Option<seq<string>>,
    documents: Option<seq<Document>>)

  function QueryLine(query: Option<string>): string {
    "Your Query: \"" + query.GetOr("") + "\""
  }

  /** The concepts, each behind the bullet. */
  function Bulleted(concepts: seq<string>): (r: seq<string>)
    ensures |r| == |concepts|
    ensures forall k :: 0 <= k < |r| ==> |Bullet| <= |r[k]| && r[k][..|Bullet|] == Bullet && r[k][|Bullet|..] == concepts[k]
  {
    seq(|concepts|, k requires 0 <= k < |concepts| => Bullet + concepts[k])
  }

  /** `results.legalConcepts && results.legalConcepts.length > 0`. */
  predicate HasConcepts(r: Results) {
    r.legalConcepts.Some? && |r.legalConcepts.value| > 0
  }

  predicate HasDocuments(r: Results) {
    r.documents.Some? && |r.documents.value| > 0
  }

  /** Title, query line and the wrapped summary (`summary || ''`), then 5 units of space. */
  function Intro(r: Results, wrap: string -> seq<string>): (p: Pen)
    ensures p.placed == [Placed(1, Margin, [ReportTitle]),
                         Placed(1, Margin + TitleGap, [QueryLine(r.query)]),
                         Placed(1, Margin + 2 * TitleGap, wrap(OrElse(r.summary, "")))]
    ensures p.at == Cursor(1, Margin + 2 * TitleGap + LineHeight * |wrap(OrElse(r.summary, ""))| + SectionGap)
    ensures Counted(p)
  {
    var p1 := Advance(Write(Fresh, [ReportTitle]), TitleGap);
    var p2 := Advance(Write(p1, [QueryLine(r.query)]), TitleGap);
    var lines := wrap(OrElse(r.summary, ""));
    FreshCounted();
    WriteCounts(Fresh, false, [ReportTitle]);
    WriteCounts(p1, false, [QueryLine(r.query)]);
    WriteCounts(p2, false, lines);
    Advance(Write(p2, lines), LineHeight * |lines| + SectionGap)
  }

  /**
   * The concepts section: nothing without concepts; otherwise the heading
   * where the pen is (no break check), then one bulleted line per concept
   * through the line loop's break check, then 5 units of space.
   */
  function ConceptsSection(p: Pen, r: Results, pageHeight: int): (q: Pen)
    ensures |p.placed| <= |q.placed| && q.placed[..|p.placed|] == p.placed
    ensures !HasConcepts(r) ==> q == p
    ensures HasConcepts(r) ==>
      && |q.placed| == |p.placed| + 1 + |r.legalConcepts.value|
      && q.placed[..|p.placed|] == p.placed
      && q.placed[|p.placed|] == Placed(p.at.page, p.at.y, [ConceptsHeading])
      && q.placed[|p.placed| + 1..] == FlowLines(Cursor(p.at.page, p.at.y + LineHeight), Bulleted(r.legalConcepts.value), pageHeight).placed
    ensures Counted(p) ==> Counted(q)
  {
    if HasConcepts(r) then
      var h := Advance(Write(p, [ConceptsHeading]), LineHeight);
      var f := Flowed(h, Bulleted(r.legalConcepts.value), pageHeight);
      WriteCounts(p, false, [ConceptsHeading]);
      FlowedCounts(h, Bulleted(r.legalConcepts.value), pageHeight);
      assert f.placed == p.placed + [Placed(p.at.page, p.at.y, [ConceptsHeading])] + FlowLines(h.at, Bulleted(r.legalConcepts.value), pageHeight).placed;
      Advance(f, SectionGap)
    else p
  }

  /**
   * Concept `k` is printed once, as the bullet and the concept, in input
   * order; on a page at least 27 high it ends above the bottom margin.
   */
  lemma ConceptLines(c: Cursor, concepts: seq<string>, pageHeight: int)
    ensures var f := FlowLines(c, Bulleted(concepts), pageHeight);
      && |f.placed| == |concepts|
      && (forall k :: 0 <= k < |concepts| ==> f.placed[k].lines == [Bullet + concepts[k]])
      && (pageHeight >= 27 ==> forall k :: 0 <= k < |concepts| ==> f.placed[k].y + LineHeight <= pageHeight - Margin)
  {
    var f := FlowLines(c, Bulleted(concepts), pageHeight);
    forall k | 0 <= k < |concepts|
      ensures f.placed[k].lines == [Bullet + concepts[k]]
    {
      assert Bulleted(concepts)[k] == Bullet + concepts[k];
    }
    if pageHeight >= 27 {
      FlowFits(c, Bulleted(concepts), pageHeight);
    }
  }

  function TitleLine(d: Document): string { OrElse(d.title, "") }
  function CategoryLine(d: Document): string { "Category: " + OrElse(d.category, "N/A") }
  function DateLine(d: Document): string { "Date: " + OrElse(d.date, "N/A") }

  /**
   * One document block: break the page if 20 units would not fit, then
   * title, category and date lines 7 apart on one page, then 12 more.  On a
   * page at least 40 high the block's 20 units end above the bottom margin.
   */
  function DocumentBlock(p: Pen, d: Document, pageHeight: int): (q: Pen)
    ensures var broke := Overflows(p.at.y, BlockRoom, pageHeight);
      var page := if broke then p.at.page + 1 else p.at.page;
      var y := if broke then Margin else p.at.y;
      && q.placed == p.placed + [Placed(page, y, [TitleLine(d)]),
                                 Placed(page, y + LineHeight, [CategoryLine(d)]),
                                 Placed(page, y + 2 * LineHeight, [DateLine(d)])]
      && q.at == Cursor(page, y + BlockHeight)
      && (pageHeight >= 40 ==> y + BlockRoom <= pageHeight - Margin)
    ensures Counted(p) ==> Counted(q)
  {
    var p0 := EnsureRoom(p, BlockRoom, pageHeight);
    var p1 := Advance(Write(p0, [TitleLine(d)]), LineHeight);
    var p2 := Advance(Write(p1, [CategoryLine(d)]), LineHeight);
    var p3 := Advance(Write(p2, [DateLine(d)]), LineHeight + SectionGap);
    EnsureRoomWriteCounts(p, BlockRoom, pageHeight, [TitleLine(d)]);
    WriteCounts(p1, false, [CategoryLine(d)]);
    WriteCounts(p2, false, [DateLine(d)]);
    p3
  }

  /** `documents.forEach(...)`: one block per document, in order. */
  function WriteBlocks(p: Pen, docs: seq<Document>, pageHeight: int): (q: Pen)
    ensures |q.placed| == |p.placed| + 3 * |docs|
    ensures q.placed[..|p.placed|] == p.placed
    ensures Counted(p) ==> Counted(q)
    decreases |docs|
  {
    if docs == [] then p
    else WriteBlocks(DocumentBlock(p, docs[0], pageHeight), docs[1..], pageHeight)
  }

  /** A block shows `d` on a single page: title, category and date lines 7 apart. */
  ghost predicate ShowsBlock(block: seq<Placed>, d: Document, pageHeight: int) {
    && |block| == 3
    && block[0].lines == [TitleLine(d)]
    && block[1].lines == [CategoryLine(d)]
    && block[2].lines == [DateLine(d)]
    && block[1].page == block[0].page && block[2].page == block[0].page
    && block[1].y == block[0].y + LineHeight && block[2].y == block[0].y + 2 * LineHeight
    && (pageHeight >= 40 ==> block[0].y + BlockRoom <= pageHeight - Margin)
  }

  lemma BlockShown(p: Pen, d: Document, pageHeight: int)
    ensures ShowsBlock(DocumentBlock(p, d, pageHeight).placed[|p.placed|..], d, pageHeight)
  {
  }

  lemma BlockSliceShift(front: seq<Placed>, rest: seq<Placed>, k: nat)
    requires |front| == 3 && 1 <= k && 3 * k + 3 <= |front| + |rest|
    ensures (front + rest)[3 * k..3 * k + 3] == rest[3 * (k - 1)..3 * (k - 1) + 3]
  {
  }

  /** Document `k` gets the `k`-th block of three placed items. */
  lemma {:induction false} WriteBlocksSpec(p: Pen, docs: seq<Document>, pageHeight: int)
    ensures var added := WriteBlocks(p, docs, pageHeight).placed[|p.placed|..];
      forall k :: 0 <= k < |docs| ==> ShowsBlock(added[3 * k..3 * k + 3], docs[k], pageHeight)
    decreases |docs|
  {
    if docs != [] {
      var b := DocumentBlock(p, docs[0], pageHeight);
      var q := WriteBlocks(p, docs, pageHeight);
      FirstBlock(p, docs, pageHeight);
      var front := b.placed[|p.placed|..];
      var rest := q.placed[|b.placed|..];
      var added := q.placed[|p.placed|..];
      WriteBlocksSpec(b, docs[1..], pageHeight);
      BlockShown(p, docs[0], pageHeight);
      assert |rest| == 3 * (|docs| - 1);
      forall k | 0 <= k < |docs|
        ensures ShowsBlock(added[3 * k..3 * k + 3], docs[k], pageHeight)
      {
        if k == 0 {
          assert added[0..3] == front;
        } else {
          LaterBlock(front, rest, docs, k, pageHeight);
        }
      }
    }
  }

  /** Writing the blocks is writing the first one, then the rest after it. */
  lemma FirstBlock(p: Pen, docs: seq<Document>, pageHeight: int)
    requires docs != []
    ensures var b := DocumentBlock(p, docs[0], pageHeight);
      var q := WriteBlocks(p, docs, pageHeight);
      && q == WriteBlocks(b, docs[1..], pageHeight)
      && |p.placed| + 3 == |b.placed| <= |q.placed|
      && q.placed[|p.placed|..] == b.placed[|p.placed|..] + q.placed[|b.placed|..]
  {
    var b := DocumentBlock(p, docs[0], pageHeight);
    var q := WriteBlocks(b, docs[1..], pageHeight);
    assert q.placed[..|b.placed|] == b.placed;
  }

  /** Block `k >= 1` of `front + rest` is block `k - 1` of `rest`, showing the `k`-th document. */
  lemma LaterBlock(front: seq<Placed>, rest: seq<Placed>, docs: seq<Document>, k: nat, pageHeight: int)
    requires |front| == 3 && 1 <= k < |docs| && |rest| == 3 * (|docs| - 1)
    requires ShowsBlock(rest[3 * (k - 1)..3 * (k - 1) + 3], docs[1..][k - 1], pageHeight)
    ensures ShowsBlock((front + rest)[3 * k..3 * k + 3], docs[k], pageHeight)
  {
    BlockSliceShift(front, rest, k);
    assert docs[1..][k - 1] == docs[k];
  }

  /**
   * The documents section: nothing without documents; otherwise a new page,
   * the heading at its top margin, and the blocks from 10 units lower.
   */
  function DocumentsSection(p: Pen, r: Results, pageHeight: int): (q: Pen)
    ensures |p.placed| <= |q.placed| && q.placed[..|p.placed|] == p.placed
    ensures !HasDocuments(r) ==> q == p
    ensures HasDocuments(r) ==>
      && |q.placed| == |p.placed| + 1 + 3 * |r.documents.value|
      && q.placed[..|p.placed|] == p.placed
      && q.placed[|p.placed|] == Placed(p.at.page + 1, Margin, [DocumentsHeading])
    ensures Counted(p) ==> Counted(q)
  {
    if HasDocuments(r) then
      var h := Advance(Write(NewPage(p), [DocumentsHeading]), TitleGap);
      WriteCounts(p, true, [DocumentsHeading]);
      var q := WriteBlocks(h, r.documents.value, pageHeight);
      assert q.placed[..|h.placed|] == h.placed;
      q
    else p
  }

  /** The whole report, section by section. */
  function Layout(r: Results, pageHeight: int, wrap: string -> seq<string>): (p: Pen)
    ensures Counted(p)
    ensures |p.placed| >= 3 && p.placed[..3] == Intro(r, wrap).placed
  {
    var p1 := Intro(r, wrap);
    var p2 := ConceptsSection(p1, r, pageHeight);
    var p3 := DocumentsSection(p2, r, pageHeight);
    assert p3.placed[..3] == p2.placed[..3];
    p3
  }

  /**
   * Pages are added only by the concept loop's breaks, the forced page of a
   * non-empty documents section and the block loop's breaks: the last page
   * is the first plus those.
   */
  lemma PageCount(r: Results, pageHeight: int, wrap: string -> seq<string>)
    ensures var p1 := Intro(r, wrap);
      var p2 := ConceptsSection(p1, r, pageHeight);
      var p := Layout(r, pageHeight, wrap);
      && p1.at.page == 1
      && p2.at.page == 1 + PageTurns(1, p2.placed[|p1.placed|..])
      && p.at.page == p2.at.page + (if HasDocuments(r) then 1 + PageTurns(p2.at.page + 1, p.placed[|p2.placed| + 1..]) else 0)
  {
    var p1 := Intro(r, wrap);
    var p2 := ConceptsSection(p1, r, pageHeight);
    var p := Layout(r, pageHeight, wrap);
    assert p == DocumentsSection(p2, r, pageHeight);
    CountedExtension(p1, p2);
    if HasDocuments(r) {
      CountedExtension(p2, p);
      var tail := p.placed[|p2.placed|..];
      assert tail[0].page == p2.at.page + 1;
      assert tail[1..] == p.placed[|p2.placed| + 1..];
    }
  }

  /**
   * `handleExport`: the saved file is the laid-out report (intro, concepts,
   * documents) with its page count, under the fixed file name.
   */
  function Export(results: Option<Results>, pageHeight: int, wrap: string -> seq<string>): (r: Option<PdfFile>)
    ensures r.Some? <==> results.Some?
    ensures r.Some? ==> r.value.filename == ReportFilename && r.value.pages == 1 + PageTurns(1, r.value.placed)
    ensures results.Some? ==>
      && r.value.placed == Layout(results.value, pageHeight, wrap).placed
      && r.value.pages == Layout(results.value, pageHeight, wrap).at.page
    ensures results.Some? ==> |r.value.placed| >= 3 && r.value.placed[..3] == Intro(results.value, wrap).placed
  {
    match results
    case None => None
    case Some(res) =>
      var p := Layout(res, pageHeight, wrap);
      Some(PdfFile(p.placed, p.at.page, ReportFilename))
  }
}

=== FILE: search_page.dfy ===
/**
 * The search page as a state machine: typing, the documents load, submitting
 * a query, and the reply or failure of the `/generate` request.  Requests are
 * not sent here: `Submit` returns the query it would send, and `Complete`
 * receives the outcome.  The clock is a parameter.
 */
module SearchPage {
  import opened Wrappers
  import opened Text
  import opened Seqs
  import opened Documents
  import ReportExport

  const SearchErrorMessage: string := "An error occurred while searching. Please try again."
  /** How many loaded documents stand in when the reply has no `relevant_documents`. */
  const FallbackDocuments: nat := 3
  /** How many loaded documents the "Available Documents" grid shows. */
  const GridDocuments: nat := 6
  const SkeletonCount: nat := 6

  /** What the page keeps of a successful search. */
  datatype SearchResult = SearchResult(
    query: string,
    summary: Option<string>,
    documents: seq<Document>,
    legalConcepts: seq<string>,
    timestamp: string)

  datatype PageState = PageState(
    query: string,
    searching: bool,
    results: Option<SearchResult>,
    error: Option<string>,
    documents: seq<Document>,
    documentsLoading: bool)

  /** The page as first rendered. */
  const Initial: PageState := PageState("", false, None, None, [], true)

  /** `!query.trim()`: the query is empty after removing JavaScript whitespace. */
  predicate Blank(query: string) {
    Trim(query, IsJsSpace) == ""
  }

  /** Typing into the search box. */
  function EditQuery(s: PageState, query: string): (r: PageState)
    ensures r.query == query
    ensures r.(query := s.query) == s
  {
    s.(query := query)
  }

  /** The documents fetch settles: its list on success, the old list on failure; loading ends either way. */
  function DocumentsLoaded(s: PageState, fetched: Option<seq<Document>>): (r: PageState)
    ensures !r.documentsLoading
    ensures r.documents == (if fetched.Some? then fetched.value else s.documents)
    ensures r.(documents := s.documents, documentsLoading := s.documentsLoading) == s
  {
    match fetched
    case Some(docs) => s.(documents := docs, documentsLoading := false)
    case None => s.(documentsLoading := false)
  }

  /**
   * A search in flight: the query sent, and the loaded documents as the
   * `handleSearch` closure captured them when the search was submitted.
   */
  datatype Request = Request(query: string, documents: seq<Document>)

  /** The state after submitting, and the request sent to `/generate`, if any. */
  datatype Submitted = Submitted(state: PageState, request: Option<Request>)

  /**
   * `handleSearch` up to the request: a blank query changes nothing and sends
   * nothing; otherwise the search starts with error and results cleared, and
   * the query is sent as typed.
   */
  function Submit(s: PageState): (r: Submitted)
    ensures r.request.None? <==> forall i :: 0 <= i < |s.query| ==> IsJsSpace(s.query[i])
    ensures r.request.None? ==> r.state == s
    ensures r.request.Some? ==>
      && r.request.value == Request(s.query, s.documents)
      && r.state.searching && r.state.error.None? && r.state.results.None?
      && r.state.(searching := s.searching, error := s.error, results := s.results) == s
  {
    TrimEmptyIff(s.query, IsJsSpace);
    if Blank(s.query) then Submitted(s, None)
    else Submitted(s.(searching := true, error := None, results := None), Some(Request(s.query, s.documents)))
  }

  /** The settled `/generate` request: a reply body, or any failure. */
  datatype Outcome = Replied(reply: GenerateReply) | Failed

  /**
   * The `SearchResult` built from a reply: `relevant_documents` whenever the
   * field is present (an empty list is kept), else the first three loaded
   * documents; concepts default to the empty list.
   */
  function Adapt(query: string, reply: GenerateReply, loaded: seq<Document>, now: string): (r: SearchResult)
    ensures r.query == query && r.summary == reply.summary && r.timestamp == now
    ensures reply.relevantDocuments.Some? ==> r.documents == reply.relevantDocuments.value
    ensures reply.relevantDocuments.None? ==>
      && |r.documents| == (if |loaded| < FallbackDocuments then |loaded| else FallbackDocuments)
      && r.documents == loaded[..|r.documents|]
    ensures reply.legalConcepts.Some? ==> r.legalConcepts == reply.legalConcepts.value
    ensures reply.legalConcepts.None? ==> r.legalConcepts == []
  {
    SearchResult(
      query,
      reply.summary,
      reply.relevantDocuments.GetOr(Take(loaded, FallbackDocuments)),
      reply.legalConcepts.GetOr([]),
      now)
  }

  /** An empty `relevant_documents` list is used as is; the loaded documents do not stand in. */
  lemma EmptyRelevantIsKept(query: string, loaded: seq<Document>, now: string)
    ensures Adapt(query, GenerateReply(None, Some([]), None), loaded, now).documents == []
  {
  }

  /**
   * The request settles: on a reply the results are set, on failure the
   * error message is set and the results are left alone; either way the
   * search ends.  The result is built from the request: its query and the
   * documents captured at submission, not the ones loaded since.
   */
  function Complete(s: PageState, req: Request, outcome: Outcome, now: string): (r: PageState)
    ensures !r.searching
    ensures outcome.Replied? ==> r.results == Some(Adapt(req.query, outcome.reply, req.documents, now)) && r.error == s.error
    ensures outcome.Failed? ==> r.error == Some(SearchErrorMessage) && r.results == s.results
    ensures r.query == s.query && r.documents == s.documents && r.documentsLoading == s.documentsLoading
  {
    match outcome
    case Replied(reply) => s.(results := Some(Adapt(req.query, reply, req.documents, now)), searching := false)
    case Failed => s.(error := Some(SearchErrorMessage), searching := false)
  }

  /**
   * Documents that finish loading while a search runs do not stand in for a
   * missing `relevant_documents`: the fallback is the first three documents
   * the page held when the search was submitted.
   */
  lemma LateLoadIgnored(s: PageState, fetched: Option<seq<Document>>, summary: Option<string>, now: string)
    requires !Blank(s.query)
    ensures var sub := Submit(s);
      && sub.request.Some?
      && var r := Complete(DocumentsLoaded(sub.state, fetched), sub.request.value,
                           Replied(GenerateReply(summary, None, None)), now);
         && r.results.Some?
         && r.results.value.documents == Take(s.documents, FallbackDocuments)
         && r.documents == (if fetched.Some? then fetched.value else s.documents)
  {
    TrimEmptyIff(s.query, IsJsSpace);
  }

  /**
   * What the page keeps true between events: while a search runs neither
   * results nor an error are shown, and results and an error are never
   * shown together.
   */
  predicate Consistent(s: PageState) {
    && (s.searching ==> s.results.None? && s.error.None?)
    && !(s.results.Some? && s.error.Some?)
  }

  lemma InitialConsistent()
    ensures Consistent(Initial)
  {
  }

  /** Every event keeps the page consistent; a request settles only while its search runs. */
  lemma StepsKeepConsistent(s: PageState, query: string, fetched: Option<seq<Document>>, req: Request, outcome: Outcome, now: string)
    requires Consistent(s)
    ensures Consistent(EditQuery(s, query))
    ensures Consistent(DocumentsLoaded(s, fetched))
    ensures Consistent(Submit(s).state)
    ensures s.searching ==> Consistent(Complete(s, req, outcome, now))
  {
  }

  /**
   * One search from a resting page: a blank query changes nothing; any other
   * ends with exactly one of the results for that query or the error message.
   */
  lemma SearchRoundTrip(s: PageState, outcome: Outcome, now: string)
    requires Consistent(s) && !s.searching
    ensures var sub := Submit(s);
      sub.request.Some? ==>
        var r := Complete(sub.state, sub.request.value, outcome, now);
        && Consistent(r) && !r.searching
        && (r.results.Some? <==> outcome.Replied?)
        && (r.error.Some? <==> outcome.Failed?)
        && (r.results.Some? ==> r.results.value.query == s.query)
        && (r.documents == s.documents)
  {
  }

  /** The "Available Documents" area. */
  datatype Grid = Hidden | Skeletons(count: nat) | NoDocuments | Cards(docs: seq<Document>)

  /**
   * The area is shown only with no results and no search running: skeletons
   * while the documents load, a notice when there are none, else the first
   * six documents.
   */
  function AvailableGrid(s: PageState): (g: Grid)
    ensures g.Hidden? <==> s.results.Some? || s.searching
    ensures g.Skeletons? <==> !g.Hidden? && s.documentsLoading
    ensures g.Skeletons? ==> g.count == SkeletonCount
    ensures g.NoDocuments? <==> !g.Hidden? && !s.documentsLoading && s.documents == []
    ensures g.Cards? <==> !g.Hidden? && !s.documentsLoading && s.documents != []
    ensures g.Cards? ==>
      && 0 < |g.docs| <= GridDocuments && |g.docs| <= |s.documents|
      && g.docs == s.documents[..|g.docs|]
      && (|s.documents| >= GridDocuments ==> |g.docs| == GridDocuments)
      && (|s.documents| < GridDocuments ==> g.docs == s.documents)
  {
    if s.results.Some? || s.searching then Hidden
    else if s.documentsLoading then Skeletons(SkeletonCount)
    else if |s.documents| == 0 then NoDocuments
    else Cards(Take(s.documents, GridDocuments))
  }

  /** While a search runs the page shows neither the grid nor results. */
  lemma SearchingHidesEverything(s: PageState)
    requires Consistent(s) && s.searching
    ensures AvailableGrid(s).Hidden? && s.results.None?
  {
  }

  /**
   * A stored result as the report export receives it. No null guard of the
   * report fires for it: the query line quotes the query itself, and each
   * section is written exactly when the result has something for it.
   */
  function ReportInput(r: SearchResult): (res: ReportExport.Results)
    ensures ReportExport.QueryLine(res.query) == "Your Query: \"" + r.query + "\""
    ensures ReportExport.HasConcepts(res) <==> r.legalConcepts != []
    ensures ReportExport.HasDocuments(res) <==> r.documents != []
  {
    ReportExport.Results(Some(r.query), r.summary, Some(r.legalConcepts), Some(r.documents))
  }

  /**
   * The report of a search repeats the submitted query on its second line
   * and has a documents section exactly when the search returned documents.
   */
  lemma ReportOfSearch(r: SearchResult, pageHeight: int, wrap: string -> seq<string>)
    ensures var p := ReportExport.Layout(ReportInput(r), pageHeight, wrap);
      && p.placed[1].lines == [ReportExport.QueryLine(Some(r.query))]
      && (ReportExport.HasDocuments(ReportInput(r)) <==> |r.documents| > 0)
  {
    var p := ReportExport.Layout(ReportInput(r), pageHeight, wrap);
    assert p.placed[1] == p.placed[..3][1];
  }
}

=== FILE: seqs.dfy ===
/** Generic sequence helpers: prefixes and the order-preserving filter. */
module Seqs {

  /** `xs.slice(0, n)` / `xs[:n]`: at most the first `n` elements. */
  function Take<T>(xs: seq<T>, n: nat): (r: seq<T>)
    ensures |r| == if |xs| <= n then |xs| else n
    ensures r == xs[..|r|]
  {
    if |xs| <= n then xs else xs[..n]
  }

  /** `xs.filter(keep)` / `[x for x in xs if keep(x)]`. */
  function Select<T>(xs: seq<T>, keep: T -> bool): (r: seq<T>)
    ensures |r| <= |xs|
    ensures forall k :: 0 <= k < |r| ==> keep(r[k])
    decreases |xs|
  {
    if xs == [] then []
    else
      var init := Select(xs[..|xs| - 1], keep);
      var last := xs[|xs| - 1];
      assert xs == xs[..|xs| - 1] + [last];
      if keep(last) then init + [last] else init
  }

  /** `idx` lists, in increasing order, the positions of `xs` that `sub` was taken from. */
  ghost predicate IsEmbedding<T>(idx: seq<int>, sub: seq<T>, xs: seq<T>) {
    && |idx| == |sub|
    && (forall k :: 0 <= k < |idx| ==> 0 <= idx[k] < |xs| && sub[k] == xs[idx[k]])
    && (forall k, l :: 0 <= k < l < |idx| ==> idx[k] < idx[l])
  }

  /** `Select` keeps only passing elements, and keeps them in their original order. */
  lemma {:induction false} SelectEmbeds<T>(xs: seq<T>, keep: T -> bool) returns (idx: seq<int>)
    ensures IsEmbedding(idx, Select(xs, keep), xs)
    ensures forall i :: 0 <= i < |xs| && keep(xs[i]) ==> i in idx
    decreases |xs|
  {
    if xs == [] {
      idx := [];
      return;
    }
    var n := |xs| - 1;
    var init := xs[..n];
    var before := SelectEmbeds(init, keep);
    var prefix := Select(init, keep);
    assert forall k :: 0 <= k < |before| ==> init[before[k]] == xs[before[k]];
    if keep(xs[n]) {
      idx := before + [n];
      assert Select(xs, keep) == prefix + [xs[n]];
    } else {
      idx := before;
      assert Select(xs, keep) == prefix;
    }
    forall i | 0 <= i < |xs| && keep(xs[i])
      ensures i in idx
    {
      if i < n {
        assert init[i] == xs[i];
      }
    }
  }

  /**
   * `Select` keeps exactly the positions whose element passes, in their
   * original order: nothing is added, duplicated or reordered.
   */
  lemma SelectKeepsOrder<T>(xs: seq<T>, keep: T -> bool) returns (idx: seq<int>)
    ensures IsEmbedding(idx, Select(xs, keep), xs)
    ensures forall i :: 0 <= i < |xs| ==> (i in idx <==> keep(xs[i]))
  {
    idx := SelectEmbeds(xs, keep);
    forall i | 0 <= i < |xs| && i in idx
      ensures keep(xs[i])
    {
      var k :| 0 <= k < |idx| && idx[k] == i;
      assert Select(xs, keep)[k] == xs[i];
    }
  }

  /** When every element passes, `Select` returns its input unchanged. */
  lemma {:induction false} SelectAll<T>(xs: seq<T>, keep: T -> bool)
    requires forall i :: 0 <= i < |xs| ==> keep(xs[i])
    ensures Select(xs, keep) == xs
    decreases |xs|
  {
    if xs != [] {
      SelectAll(xs[..|xs| - 1], keep);
      assert xs == xs[..|xs| - 1] + [xs[|xs| - 1]];
    }
  }

  /** When no element passes, `Select` returns nothing. */
  lemma {:induction false} SelectNone<T>(xs: seq<T>, keep: T -> bool)
    requires forall i :: 0 <= i < |xs| ==> !keep(xs[i])
    ensures Select(xs, keep) == []
    decreases |xs|
  {
    if xs != [] {
      SelectNone(xs[..|xs| - 1], keep);
    }
  }

  /** A stronger filter keeps at most as many elements as a weaker one. */
  lemma {:induction false} SelectStrongerIsShorter<T>(xs: seq<T>, strong: T -> bool, weak: T -> bool)
    requires forall i :: 0 <= i < |xs| ==> strong(xs[i]) ==> weak(xs[i])
    ensures |Select(xs, strong)| <= |Select(xs, weak)|
    decreases |xs|
  {
    if xs != [] {
      SelectStrongerIsShorter(xs[..|xs| - 1], strong, weak);
    }
  }

  /** Filtering a sequence with one more element at the end filters the rest, then that element. */
  lemma SelectSnoc<T>(xs: seq<T>, x: T, keep: T -> bool)
    ensures Select(xs + [x], keep) == Select(xs, keep) + (if keep(x) then [x] else [])
  {
    assert (xs + [x])[..|xs|] == xs;
  }

  /** Filtering a sequence with one more element in front filters that element, then the rest. */
  lemma {:induction false} SelectCons<T>(x: T, xs: seq<T>, keep: T -> bool)
    ensures Select([x] + xs, keep) == (if keep(x) then [x] else []) + Select(xs, keep)
    decreases |xs|
  {
    if xs == [] {
      SelectSnoc([], x, keep);
      assert [x] + xs == [] + [x];
    } else {
      var n := |xs| - 1;
      SelectCons(x, xs[..n], keep);
      assert [x] + xs == ([x] + xs[..n]) + [xs[n]];
      assert xs == xs[..n] + [xs[n]];
      SelectSnoc([x] + xs[..n], xs[n], keep);
      SelectSnoc(xs[..n], xs[n], keep);
    }
  }

  /** Filtering twice is filtering once by both tests. */
  lemma {:induction false} SelectSelect<T>(xs: seq<T>, first: T -> bool, second: T -> bool, both: T -> bool)
    requires forall x :: both(x) == (first(x) && second(x))
    ensures Select(Select(xs, first), second) == Select(xs, both)
    decreases |xs|
  {
    if xs != [] {
      var n := |xs| - 1;
      SelectSelect(xs[..n], first, second, both);
      assert xs == xs[..n] + [xs[n]];
      SelectSnoc(xs[..n], xs[n], first);
      SelectSnoc(xs[..n], xs[n], both);
      if first(xs[n]) {
        SelectSnoc(Select(xs[..n], first), xs[n], second);
      }
    }
  }
}

=== FILE: store.dfy ===
/** The backend's in-memory document list and the lookup by id. */
module Store {
  import opened Wrappers

  /**
   * A stored document as the backend reads it: id, title and content are
   * indexed directly, category and keywords through `dict.get`.
   */
  datatype StoredDocument = StoredDocument(
    id: string,
    title: string,
    category: Option<string>,
    content: string,
    keywords: Option<seq<string>>)

  /** An HTTP error response: status code and detail message. */
  datatype HttpError = HttpError(status: nat, detail: string)

  const NotFound: HttpError := HttpError(404, "Document not found")

  /** Position `i` holds the first document whose id is `id`. */
  ghost predicate FirstWithId(db: seq<StoredDocument>, id: string, i: int) {
    0 <= i < |db| && db[i].id == id && forall j :: 0 <= j < i ==> db[j].id != id
  }

  /** The first position at or after `from` whose document has id `id`. */
  function FindFrom(db: seq<StoredDocument>, id: string, from: nat): (r: Option<nat>)
    requires from <= |db|
    ensures r.Some? ==> from <= r.value < |db| && db[r.value].id == id
    ensures r.Some? ==> forall j :: from <= j < r.value ==> db[j].id != id
    ensures r.None? ==> forall j :: from <= j < |db| ==> db[j].id != id
    decreases |db| - from
  {
    if from == |db| then None
    else if db[from].id == id then Some(from)
    else FindFrom(db, id, from + 1)
  }

  /** `next((d for d in documents_db if d["id"] == id), None)`. */
  function Lookup(db: seq<StoredDocument>, id: string): (r: Option<StoredDocument>)
    ensures r.Some? <==> exists i :: 0 <= i < |db| && db[i].id == id
    ensures r.Some? ==> exists i :: FirstWithId(db, id, i) && db[i] == r.value
  {
    var found := FindFrom(db, id, 0);
    if found.Some? then
      assert FirstWithId(db, id, found.value);
      Some(db[found.value])
    else None
  }

  /** `GET /api/documents/{id}`: the first document with that id, or a 404. */
  function GetDocument(db: seq<StoredDocument>, id: string): (r: Result<StoredDocument, HttpError>)
    ensures r.Success? <==> exists i :: 0 <= i < |db| && db[i].id == id
    ensures r.Success? ==> exists i :: FirstWithId(db, id, i) && db[i] == r.value
    ensures r.Failure? ==> r.error == NotFound
  {
    match Lookup(db, id)
    case Some(d) => Success(d)
    case None => Failure(NotFound)
  }

  /** With unique ids, the document found for position `i`'s id is the one at `i`. */
  lemma LookupUniqueId(db: seq<StoredDocument>, i: int)
    requires 0 <= i < |db|
    requires forall j, k :: 0 <= j < k < |db| ==> db[j].id != db[k].id
    ensures Lookup(db, db[i].id) == Some(db[i])
  {
    var r := Lookup(db, db[i].id);
    assert r.Some?;
    var j :| FirstWithId(db, db[i].id, j) && db[j] == r.value;
  }
}

=== FILE: text.dfy ===
/**
 * String helpers shared by the frontend and the backend model: ASCII case
 * mapping, substring search, trimming, replacement, slicing and joining.
 * Case mapping is restricted to ASCII; Unicode case rules are not modelled.
 */
module Text {

  predicate IsUpper(c: char) { 'A' <= c <= 'Z' }
  predicate IsLower(c: char) { 'a' <= c <= 'z' }
  predicate IsDigit(c: char) { '0' <= c <= '9' }
  predicate IsLetter(c: char) { IsUpper(c) || IsLower(c) }

  function LowerChar(c: char): char {
    if IsUpper(c) then (c as int + 32) as char else c
  }

  function UpperChar(c: char): char {
    if IsLower(c) then (c as int - 32) as char else c
  }

  /** `toLowerCase()` / `str.lower()` on ASCII. */
  function Lower(s: string): string {
    seq(|s|, i requires 0 <= i < |s| => LowerChar(s[i]))
  }

  /** `toUpperCase()` on ASCII. */
  function Upper(s: string): string {
    seq(|s|, i requires 0 <= i < |s| => UpperChar(s[i]))
  }

  /** `s.replace(/x/g, y)` for a single-character pattern and replacement. */
  function Replace(s: string, from: char, to: char): string {
    seq(|s|, i requires 0 <= i < |s| => if s[i] == from then to else s[i])
  }

  /** `parts.join(sep)`. */
  function Join(parts: seq<string>, sep: string): string
    decreases |parts|
  {
    if |parts| == 0 then ""
    else if |parts| == 1 then parts[0]
    else parts[0] + sep + Join(parts[1..], sep)
  }

  /** Python's `str.isspace()`, which is also what the `\s` regex class matches on `str`. */
  predicate IsPySpace(c: char) {
    c == ' ' || ('\t' <= c <= '\r') || ('\U{1C}' <= c <= '\U{1F}')
    || c == '\U{85}' || c == '\U{A0}' || c == '\U{1680}'
    || ('\U{2000}' <= c <= '\U{200A}')
    || c == '\U{2028}' || c == '\U{2029}' || c == '\U{202F}' || c == '\U{205F}' || c == '\U{3000}'
  }

  /** The characters JavaScript's `String.prototype.trim()` removes. */
  predicate IsJsSpace(c: char) {
    c == ' ' || ('\t' <= c <= '\r') || c == '\U{A0}' || c == '\U{1680}'
    || ('\U{2000}' <= c <= '\U{200A}')
    || c == '\U{2028}' || c == '\U{2029}' || c == '\U{202F}' || c == '\U{205F}' || c == '\U{3000}'
    || c == '\U{FEFF}'
  }

  /** `s` without its leading characters satisfying `p`. */
  function DropWhile(s: string, p: char -> bool): (r: string)
    ensures |r| <= |s| && r == s[|s| - |r|..]
    ensures r == [] || !p(r[0])
    ensures forall i :: 0 <= i < |s| - |r| ==> p(s[i])
    decreases |s|
  {
    if s != [] && p(s[0]) then DropWhile(s[1..], p) else s
  }

  /** Dropping from `a + b` stops inside `a` unless the whole of `a` is dropped. */
  lemma {:induction false} DropWhileAppend(a: string, b: string, p: char -> bool)
    ensures DropWhile(a + b, p) == if DropWhile(a, p) != [] then DropWhile(a, p) + b else DropWhile(b, p)
    decreases |a|
  {
    if a == [] {
      assert a + b == b;
    } else {
      assert (a + b)[0] == a[0];
      assert (a + b)[1..] == a[1..] + b;
      if p(a[0]) {
        DropWhileAppend(a[1..], b, p);
      }
    }
  }

  /** `s` without its trailing characters satisfying `p`. */
  function DropWhileEnd(s: string, p: char -> bool): (r: string)
    ensures |r| <= |s| && r == s[..|r|]
    ensures r == [] || !p(r[|r| - 1])
    ensures forall i :: |r| <= i < |s| ==> p(s[i])
    decreases |s|
  {
    if s != [] && p(s[|s| - 1]) then DropWhileEnd(s[..|s| - 1], p) else s
  }

  /** `str.strip()` (with `p == IsPySpace`) and `String.prototype.trim()` (with `p == IsJsSpace`). */
  function Trim(s: string, p: char -> bool): string {
    DropWhileEnd(DropWhile(s, p), p)
  }

  /** What trimming leaves is a contiguous slice of the input whose ends are not trimmable. */
  lemma TrimIsSlice(s: string, p: char -> bool) returns (a: nat)
    ensures a + |Trim(s, p)| <= |s| && Trim(s, p) == s[a..a + |Trim(s, p)|]
    ensures Trim(s, p) == [] || (!p(Trim(s, p)[0]) && !p(Trim(s, p)[|Trim(s, p)| - 1]))
  {
    var d := DropWhile(s, p);
    var t := DropWhileEnd(d, p);
    a := |s| - |d|;
    assert t == s[a..a + |t|] by {
      assert d == s[a..] && t == d[..|t|];
      SliceOfSlice(s, a, 0, |t|);
    }
    assert t == [] || !p(t[0]) by {
      if t != [] {
        assert t[0] == d[0];
      }
    }
  }

  /** Text whose ends are not trimmable is its own trim. */
  lemma TrimKeeps(s: string, p: char -> bool)
    requires s == [] || (!p(s[0]) && !p(s[|s| - 1]))
    ensures Trim(s, p) == s
  {
    assert DropWhile(s, p) == s;
  }

  /** Trimming leaves nothing exactly when every character is trimmable. */
  lemma TrimEmptyIff(s: string, p: char -> bool)
    ensures Trim(s, p) == [] <==> forall i :: 0 <= i < |s| ==> p(s[i])
  {
    var d := DropWhile(s, p);
    if Trim(s, p) == [] {
      forall i | 0 <= i < |s| ensures p(s[i]) {
        if i >= |s| - |d| {
          assert s[i] == d[i - (|s| - |d|)];
        }
      }
    } else {
      var t := Trim(s, p);
      assert !p(t[0]);
      assert t[0] == d[0] == s[|s| - |d|];
    }
  }

  /** `sub` occurs in `s` starting at index `i`. */
  ghost predicate OccursAt(sub: string, s: string, i: int) {
    0 <= i && i + |sub| <= |s| && s[i..i + |sub|] == sub
  }

  /** `s.includes(sub)` / Python's `sub in s`. */
  predicate Contains(s: string, sub: string)
    decreases |s|
  {
    sub <= s || (|s| > 0 && Contains(s[1..], sub))
  }

  lemma SliceOfSlice<T>(s: seq<T>, a: nat, i: nat, j: nat)
    requires a <= |s| && i <= j <= |s| - a
    ensures s[a..][i..j] == s[a + i..a + j]
  {
    assert |s[a..][i..j]| == |s[a + i..a + j]|;
    forall k | 0 <= k < j - i ensures s[a..][i..j][k] == s[a + i..a + j][k] {
    }
  }

  lemma SubSlice<T>(s: seq<T>, a: nat, b: nat, i: nat, j: nat)
    requires a <= b <= |s| && i <= j <= b - a
    ensures s[a..b][i..j] == s[a + i..a + j]
  {
    assert |s[a..b][i..j]| == |s[a + i..a + j]|;
    forall k | 0 <= k < j - i ensures s[a..b][i..j][k] == s[a + i..a + j][k] {
    }
  }

  /** `Contains` is the substring relation: some position of `s` starts a copy of `sub`. */
  lemma {:induction false} ContainsIff(s: string, sub: string)
    ensures Contains(s, sub) <==> exists i :: OccursAt(sub, s, i)
    decreases |s|
  {
    if Contains(s, sub) {
      if sub <= s {
        assert OccursAt(sub, s, 0);
      } else {
        ContainsIff(s[1..], sub);
        var i :| OccursAt(sub, s[1..], i);
        SliceOfSlice(s, 1, i, i + |sub|);
        assert OccursAt(sub, s, i + 1);
      }
    }
    if exists i :: OccursAt(sub, s, i) {
      var i :| OccursAt(sub, s, i);
      if i == 0 {
        assert sub <= s;
      } else {
        SliceOfSlice(s, 1, i - 1, i - 1 + |sub|);
        assert OccursAt(sub, s[1..], i - 1);
        ContainsIff(s[1..], sub);
      }
    }
  }

  /** Python's `any(word in text for word in words)`. */
  predicate MentionsAny(text: string, words: seq<string>) {
    exists k :: 0 <= k < |words| && Contains(text, words[k])
  }

  /** A one-character string occurs only where that character does. */
  lemma {:induction false} NotContainsAbsentChar(s: string, c: char)
    requires forall i :: 0 <= i < |s| ==> s[i] != c
    ensures !Contains(s, [c])
    decreases |s|
  {
    if |s| > 0 {
      assert s[0] != c;
      NotContainsAbsentChar(s[1..], c);
    }
  }

  /** Every string contains the empty string. */
  lemma ContainsEmpty(s: string)
    ensures Contains(s, "")
  {
  }

  /** A substring of a substring of `s` is a substring of `s`. */
  lemma ContainsTransitive(s: string, mid: string, sub: string)
    requires Contains(s, mid) && Contains(mid, sub)
    ensures Contains(s, sub)
  {
    ContainsIff(s, mid);
    ContainsIff(mid, sub);
    var j :| OccursAt(mid, s, j);
    var i :| OccursAt(sub, mid, i);
    SubSlice(s, j, j + |mid|, i, i + |sub|);
    assert OccursAt(sub, s, j + i);
    ContainsIff(s, sub);
  }

  /** Lowercasing both sides preserves containment. */
  lemma ContainsLower(s: string, sub: string)
    requires Contains(s, sub)
    ensures Contains(Lower(s), Lower(sub))
  {
    ContainsIff(s, sub);
    var i :| OccursAt(sub, s, i);
    assert Lower(s)[i..i + |sub|] == Lower(sub);
    assert OccursAt(Lower(sub), Lower(s), i);
    ContainsIff(Lower(s), Lower(sub));
  }
}

=== FILE: wrappers.dfy ===
/** Optional values and results with an error, as used across the model. */
module Wrappers {

  /** A value that may be absent: a missing JSON field, `undefined` or `None`. */
  datatype Option<T> = None | Some(value: T) {

    /** The value if present, otherwise `default` (the `??` and `dict.get` idiom). */
    function GetOr(default: T): T {
      match this
      case Some(v) => v
      case None => default
    }
  }

  /** Either a successful value or an error value. */
  datatype Result<T, E> = Success(value: T) | Failure(error: E)
}
